=== FILE: README.md ===
# Task manager core: the `/tasks` router and the User and Task schemas

A Dafny model of the core of a small Express/Mongoose task manager API:

- the `/tasks` routes: create, list with filter, sort and pages, read, update,
  delete, and attach, remove and serve task images;
- the Task schema: casts, required paths, `trim`, the `completed` default,
  and the `toJSON` that strips image bytes;
- the User schema: validators, the unique email index, the pre-save
  password hash, `findByCredentials`, `generateAuthToken`, `toJSON`, and the
  pre-remove cascade that deletes the user's tasks.

The database is a map from ObjectId text to documents. Each route is a pure
function from the collection, the authenticated caller and the request to a
reply and the new collection. Mongoose's casts (String, Boolean, Number,
ObjectId) and the JavaScript built-ins the code relies on are written out:
`trim` over the ECMAScript white-space set, ASCII `toLowerCase`, `includes`,
`split`/`join`, `parseInt` and `String(n)`.

Files:

- `wrappers.dfy`: `Option` and `Result`.
- `text.dfy`: the string built-ins.
- `casting.dfy`: request-body values and Mongoose's schema-type casts.
- `task_model.dfy`: the Task schema.
- `user_model.dfy`: the User schema.
- `task_router.dfy`: the `/tasks` routes and the `Handle` dispatcher.
- `router_properties.dfy`: isolation between users and the stored-task
  invariant.
- `round_trips.dfy`: how each route reads back what another wrote.

## Model

| member | source | states |
|---|---|---|
| Text.Trim | src/models/tasks.js:4-8 | the `trim` setter: the result has no white space at either end, the input is the result with only white space around it, and the result is empty exactly when the input is all white space |
| Text.TrimTrimmed | src/models/tasks.js:7 | trimming text that is already trimmed gives it back unchanged, so the setter is idempotent |
| Text.TrimStart | src/models/tasks.js:7 | the result is a suffix of the input, everything cut off is white space, and the result does not start with white space |
| Text.TrimEnd | src/models/tasks.js:7 | the result is a prefix of the input, everything cut off is white space, and the result does not end with white space |
| Text.ToLower | src/routers/tasks.js:117 | `toLowerCase` keeps the length, moves each of 'A' to 'Z' 32 code points up to its lower-case letter and keeps every other character, so no upper-case ASCII letter is left |
| Text.Utf16Length | src/models/users.js:36 | the JavaScript `length` lies between the character count and twice that, and equals the character count when no character is above U+FFFF |
| Text.Utf16LengthChar | src/models/users.js:36 | one character counts one unit up to U+FFFF and two (a surrogate pair) above it |
| Text.Utf16LengthAppend | src/models/users.js:36 | the length of a concatenation is the sum of the lengths, so the length counts every character by Text.Utf16LengthChar |
| Text.ContainsIffOccurs | src/models/users.js:38 | `includes` holds exactly when the pattern occurs at some index |
| Text.IndexOf | src/routers/tasks.js:33 | the position of the first separator, or the length when there is none |
| Text.Split | src/routers/tasks.js:33 | `split(':')` gives at least one part, and no part contains the separator |
| Text.JoinSplit | src/routers/tasks.js:33 | joining the parts of a split with the separator gives back the input |
| Text.SplitJoin | src/routers/tasks.js:33 | splitting a join of separator-free parts gives back those parts |
| Text.SplitAtFirst | src/routers/tasks.js:33-35 | the first part is the text before the first separator, and the later parts are the split of the text after it |
| Text.SplitSegment | src/routers/tasks.js:33 | text without the separator splits into itself alone |
| Text.DigitPrefix | src/routers/tasks.js:45-46 | the longest leading run of digits in the radix |
| Text.ParseInt | src/routers/tasks.js:45-46 | `parseInt` gives a number (not NaN) exactly when, after leading white space and at most one sign, a decimal digit or "0x"/"0X" and a hexadecimal digit follow; a negative result needs a leading '-' |
| Text.NatToString | src/routers/tasks.js:45-46 | `String(n)` of a natural number is a non-empty run of decimal digits |
| Text.NatToStringValue | src/routers/tasks.js:45-46 | the digits `String(n)` writes have the value n |
| Text.DigitPrefixOfDigits | src/routers/tasks.js:45-46 | in text made only of digits, the whole text is the leading digit run |
| Text.ParseIntOfIntToString | src/routers/tasks.js:45-46 | `parseInt` reads back every integer `String` writes, negative ones included |
| Text.MagnitudeOfDigits | src/routers/tasks.js:45-46 | a run of decimal digits is read as the number it denotes, not as hexadecimal |
| Text.SignedNegative | src/routers/tasks.js:45-46 | a leading minus sign negates the magnitude that follows it |
| Casting.CastString | src/models/tasks.js:4-8 | the String cast refuses exactly plain objects and keeps strings as they are |
| Casting.CastBoolean | src/models/tasks.js:9-12 | the Boolean cast gives true exactly for true, 'true', 1, '1' and 'yes', and false exactly for false, 'false', 0, '0' and 'no' |
| Casting.CastNumber | src/models/users.js:13-15 | the Number cast succeeds exactly on numbers and booleans, and keeps numbers as they are |
| Casting.CastObjectId | src/models/tasks.js:13-17 | the ObjectId cast succeeds exactly on 24-digit hex strings and yields the 24 characters lowered one by one, which is canonical lower-case text; an id already in that form is kept |
| Casting.SameObjectId | src/routers/tasks.js:60 | two id texts cast to the same ObjectId exactly when they agree with ASCII letter case ignored |
| Casting.CastStringOfNumber | src/models/tasks.js:4-8 | a number sent for a String path is stored as text that `parseInt` reads back as the same number |
| Casting.BooleanThroughNumber | src/models/tasks.js:9-12 | a boolean cast to a Number and back to a Boolean is unchanged |
| Casting.ReadTrimmed | src/models/tasks.js:4-8 | a `trim: true` String path is absent exactly when the document lacks it, fails exactly on an object, is otherwise trimmed text, and is non-empty exactly when the cast text is not all white space |
| TaskModel.BuildTask | src/models/tasks.js:3-25 | a new task is saved exactly when the description casts to text that is not all white space, `completed` is absent or casts to a Boolean, and the owner casts to an ObjectId; the saved task has the trimmed description, `completed` true only when the body casts to true, and no images; a failure names every failing path |
| TaskModel.SaveErrors | src/models/tasks.js:4-17 | a well-formed task passes the required validators, and `completed` is never reported |
| TaskModel.ApplyUpdates | src/routers/tasks.js:87-88 | on a well-formed task the update succeeds exactly when a named description is not blank text and a named `completed` casts; owner and images are kept; a named field takes its cast value and the others keep theirs; well-formedness is preserved; an empty update gives the task back |
| TaskModel.ImageIds | src/models/tasks.js:31-33 | one id per image entry, in order |
| TaskModel.ToJson | src/models/tasks.js:27-37 | the JSON form holds every stored field, and each image entry becomes its id, in the same order |
| TaskModel.ToJsonIgnoresBlobs | src/models/tasks.js:31-33 | tasks that differ only in image bytes serialize identically |
| TaskModel.OwnedBy | src/models/users.js:58-62 | the `tasks` virtual holds exactly the tasks whose owner is the user, unchanged |
| TaskModel.NotOwnedBy | src/models/users.js:110-114 | exactly the tasks whose owner is anybody else, unchanged: what `deleteMany({owner})` leaves |
| TaskModel.RemoveImage | src/routers/tasks.js:151 | no entry with the id survives the filter, and every survivor was an entry before |
| TaskModel.RemoveImageExactly | src/routers/tasks.js:151 | the survivors keep their order, and the filter removes exactly as many entries as carry the id |
| TaskModel.RemoveImageKeepsLength | src/routers/tasks.js:151-155 | the length stays the same exactly when no entry carries the id, and then the list is unchanged |
| TaskModel.FindImage | src/routers/tasks.js:172 | `find` gives the first entry with the id, and nothing exactly when no entry has it |
| TaskModel.FindImageAppended | src/routers/tasks.js:131-172 | an image appended after entries with other ids is the one `find` returns for its id |
| UserModel.PasswordRule | src/models/users.js:32-42 | a password passes exactly when its JavaScript length is at least 6 and "password" occurs nowhere in it in any letter case |
| UserModel.AstralPasswordAccepted | src/models/users.js:36 | three characters above U+FFFF have length 6 and pass `minlength: 6` |
| UserModel.ValidationErrors | src/models/users.js:7-43 | each path is reported exactly when its validator fails, on every save: a blank name, a negative age, an email the email check refuses, or a password (plaintext or stored hash) shorter than 6 units or containing "password" |
| UserModel.UserCastErrors | src/models/users.js:7-43 | only paths the body gave, and only user paths, are reported; none is exactly when every String and Number cast succeeds |
| UserModel.BuildUser | src/models/users.js:7-56 | `new User` succeeds exactly when every given path casts; name, email and password are trimmed, age defaults to 0, there are no tokens or avatar, and the password is marked modified; a cast failure names only paths the body gave |
| UserModel.Save | src/models/users.js:89-96 | the save succeeds exactly when validation passes and no other user has the email; the password is hashed exactly when it was modified; other users are untouched; the unique index stays unique |
| UserModel.FindByCredentials | src/models/users.js:64-75 | login succeeds exactly for a user with the trimmed email whose hash accepts the password; every failure is "Unable to login" |
| UserModel.LoginFailureIndistinguishable | src/models/users.js:64-75 | an unknown email and a wrong password produce the same failure |
| UserModel.SignupThenLogin | src/models/users.js:64-96 | a user built from a body and saved logs in with the same email and the trimmed password |
| UserModel.GenerateAuthToken | src/models/users.js:77-86 | the token signed over the id and the issue time is appended at the end of `tokens`, the stored hash is kept as it is, and other users are untouched |
| UserModel.GenerateAuthTokenSucceeds | src/models/users.js:77-86 | issuing a token for a stored user whose fields, stored hash included, pass every validator always succeeds |
| UserModel.ToJson | src/models/users.js:98-108 | the JSON form holds the user's name, email and age |
| UserModel.ToJsonHidesSecrets | src/models/users.js:98-108 | password, tokens and avatar never influence the JSON form |
| UserModel.Remove | src/models/users.js:110-114 | removing a user deletes exactly the tasks the user owned; every other user's tasks are unchanged |
| TaskRouter.FindOwned | src/routers/tasks.js:60 | a malformed id is a CastError; a task is found exactly when it exists and the caller owns it |
| TaskRouter.NewTask | src/routers/tasks.js:10-13 | the document builds exactly when the description is usable text, `completed` is absent or castable, the caller's id is ObjectId text, and a body `_id` is absent or casts to an ObjectId (otherwise `_id` is among the failed paths); the caller is the owner whatever the body says; the task is well formed with no images |
| TaskRouter.NewTaskId | src/routers/tasks.js:10-16 | a new task is saved under the body's `_id` in canonical lower-case form when the body gives one that casts, and under the generated id when the body gives none |
| TaskRouter.Create | src/routers/tasks.js:14-21 | 201 exactly when the document validated and its new id is free; the new task is stored under that id next to untouched others and is the reply body; 400 carries the validation error and leaves the store unchanged |
| TaskRouter.ParseSort | src/routers/tasks.js:32-36 | empty text does not sort; otherwise the field is the text before the first ':' and the direction is -1 exactly when the next segment is "desc", 1 otherwise |
| TaskRouter.ParseQuery | src/routers/tasks.js:28-36 | `completed` filters only when non-empty, and means true only for "true"; a non-empty `sortby` sorts as ParseSort reads it; `limit` and `skip` go through `parseInt` |
| TaskRouter.Candidates | src/routers/tasks.js:41-44 | the matched documents are exactly the caller's tasks that the `completed` filter admits |
| TaskRouter.KeepKeys | src/routers/tasks.js:41-49 | the ordering keeps exactly the ids that are matched documents |
| TaskRouter.KeepKeysInOrder | src/routers/tasks.js:41-49 | the kept ids are a subsequence of the database's order, holding each matched id as often as the order does and no other id |
| TaskRouter.SkipCount | src/routers/tasks.js:44-47 | `skip` drops min(skip, n) ids when it is a non-negative number and none when it is absent |
| TaskRouter.Page | src/routers/tasks.js:44-47 | the page is a contiguous run after the skipped ids; its length is |limit| capped by what is left, or everything left when the limit is 0 or NaN |
| TaskRouter.Views | src/routers/tasks.js:50 | one JSON form per listed id, in order |
| TaskRouter.Listing | src/routers/tasks.js:38-50 | every listed task is the caller's, admitted by the filter and sent as its JSON form; item i is the match at position skip + i of the database's order; the length is |limit| capped by what is left after the skip, or all of it when the limit is 0 or NaN |
| TaskRouter.List | src/routers/tasks.js:24-54 | the store is unchanged; 500 exactly for a negative skip; otherwise 200 with the listing for the parsed query |
| TaskRouter.Read | src/routers/tasks.js:56-68 | for any id that casts to an ObjectId, upper-case hex included: 200 with the task exactly when the cast id is stored and is the caller's, 404 otherwise; 500 for an id that does not cast |
| TaskRouter.Update | src/routers/tasks.js:70-94 | a key outside description and completed gives 400 "Invalid operation" before any lookup; a task that is not the caller's under the cast id gives 404; 200 exactly when the update validates, with the updated task stored and sent; a validation failure gives 400 with its paths; every failure leaves the store unchanged |
| TaskRouter.Delete | src/routers/tasks.js:96-109 | for any id that casts to an ObjectId: the caller's task under the cast id is removed and sent, otherwise 404 with the store unchanged; 500 for an id that does not cast |
| TaskRouter.AttachImage | src/routers/tasks.js:111-137 | a name without .jpg, .jpeg or .png gives 400 "File must be a image"; more than 6000000 bytes gives 400 "File too large"; a missing file gives no reply; an allowed upload that re-encodes, sent to the caller's well-formed task, gives 200 and is appended as the last image; nothing else is stored |
| TaskRouter.RemoveFromImages | src/routers/tasks.js:146-155 | "Images not found" exactly for an empty list, "Image not found" exactly when no entry has the id, otherwise the filtered list, which is shorter |
| TaskRouter.RemoveTaskImage | src/routers/tasks.js:139-162 | "Task not found" for a task that is not the caller's, then the image-list 404s; success stores the filtered list; failures store nothing |
| TaskRouter.ReadTaskImage | src/routers/tasks.js:164-182 | 200 with the PNG bytes of the first matching entry exactly when the caller's task has such an entry, 404 otherwise |
| TaskRouter.Handle | src/routers/tasks.js:9-182 | without an authenticated caller every route answers 401 and changes nothing |
| RouterProperties.FindOwnedSeesOnlyOwn | src/routers/tasks.js:60 | the lookup gives the same result in any two stores where the caller owns the same tasks |
| RouterProperties.CandidatesSeeOnlyOwn | src/routers/tasks.js:41-44 | the list query matches the same documents in any two stores where the caller owns the same tasks |
| RouterProperties.CreateIsolated | src/routers/tasks.js:9-22 | creating a task replies and acts alike in any two stores where the caller owns the same tasks and the key it is saved under is taken in both or in neither |
| RouterProperties.CreateDetectsTakenIds | src/routers/tasks.js:9-22 | a create whose body `_id` names another user's task answers 400, while the same create answers 201 once that task is gone, though the caller's tasks are the same: the body `_id` reveals whether an id is taken |
| RouterProperties.UpdateIsolated | src/routers/tasks.js:70-94 | updating replies and acts alike in any two stores where the caller owns the same tasks |
| RouterProperties.DeleteIsolated | src/routers/tasks.js:96-109 | deleting replies and acts alike in any two stores where the caller owns the same tasks |
| RouterProperties.AttachImageIsolated | src/routers/tasks.js:125-134 | attaching an image replies and acts alike in any two stores where the caller owns the same tasks |
| RouterProperties.RemoveTaskImageIsolated | src/routers/tasks.js:139-162 | removing an image replies and acts alike in any two stores where the caller owns the same tasks |
| RouterProperties.HandleIsolatesUsers | src/routers/tasks.js:9-182 | every route gives the caller the same reply, and leaves the caller's tasks the same, in any two stores where the caller owns the same tasks, provided a create's key is taken in both or in neither: other users' tasks cannot be read or changed |
| RouterProperties.CreateKeepsOthersTasks | src/routers/tasks.js:9-22 | creating a task the caller owns leaves every other user's tasks as they were |
| RouterProperties.UpdateKeepsOthersTasks | src/routers/tasks.js:70-94 | an update leaves every other user's tasks as they were |
| RouterProperties.DeleteKeepsOthersTasks | src/routers/tasks.js:96-109 | a delete leaves every other user's tasks as they were |
| RouterProperties.AttachImageKeepsOthersTasks | src/routers/tasks.js:125-134 | attaching an image leaves every other user's tasks as they were |
| RouterProperties.RemoveTaskImageKeepsOthersTasks | src/routers/tasks.js:139-162 | removing an image leaves every other user's tasks as they were |
| RouterProperties.HandleKeepsOthersTasks | src/routers/tasks.js:9-182 | no request changes, adds or removes a task that another user owns |
| RouterProperties.CreateKeepsTasksValid | src/models/tasks.js:3-25 | storing a task that passed validation keeps every stored task well formed |
| RouterProperties.UpdateKeepsTasksValid | src/routers/tasks.js:70-94 | an update keeps every stored task well formed |
| RouterProperties.AttachImageKeepsTasksValid | src/routers/tasks.js:125-134 | attaching an image keeps every stored task well formed |
| RouterProperties.RemoveTaskImageKeepsTasksValid | src/routers/tasks.js:139-162 | removing an image keeps every stored task well formed |
| RouterProperties.HandleKeepsTasksValid | src/models/tasks.js:3-25 | every route keeps every stored task well formed |
| RouterRoundTrips.CreateThenRead | src/routers/tasks.js:9-68 | a newly created task reads back under its new id as the 201 body |
| RouterRoundTrips.UpdateThenRead | src/routers/tasks.js:56-94 | for any id that casts, upper-case hex included, an updated task reads back as the 200 body of the update |
| RouterRoundTrips.DeleteThenRead | src/routers/tasks.js:56-109 | for any id that casts, a deleted task is not found any more |
| RouterRoundTrips.AttachThenReadImage | src/routers/tasks.js:125-182 | an attached image is served back as the re-encoded PNG under its new id |
| RouterRoundTrips.RemoveThenReadImage | src/routers/tasks.js:139-182 | a removed image is not served any more |
| RouterRoundTrips.ListIsComplete | src/routers/tasks.js:24-54 | with no skip or limit, and an ordering that lists every match, the list holds every task of the caller that the filter admits |
| RouterRoundTrips.SecondPageQuery | src/routers/tasks.js:28-47 | `?limit=1&skip=1` reads as limit 1 and skip 1, with no filter and no sort |
| RouterRoundTrips.SecondPageListing | src/routers/tasks.js:38-50 | skip 1 and limit 1 over an order of the caller's tasks keep exactly the second |
| RouterRoundTrips.ListSecondPage | src/routers/tasks.js:24-54 | `GET /tasks?limit=1&skip=1` answers exactly the second of the caller's tasks in the database's order |
| RouterRoundTrips.CreateWithDescription | src/routers/tasks.js:9-22 | a body with only a non-blank trimmed description creates that task, with `completed` false, the caller as owner and no images |
| RouterRoundTrips.UpdateAccepted | src/routers/tasks.js:70-94 | a valid update of the caller's own well-formed task, named by any id that casts to its key, answers 200 |
| RouterRoundTrips.AttachAccepted | src/routers/tasks.js:111-137 | an allowed upload that re-encodes, sent to the caller's own well-formed task under any id that casts to its key, answers 200 |
| RouterRoundTrips.SortByRoundTrip | src/routers/tasks.js:32-36 | "field:desc" and "field:asc" read back as that field, descending and ascending |
| RouterRoundTrips.PagingRoundTrip | src/routers/tasks.js:45-46 | a limit or skip written with `String(n)` reads back as n |
| RouterRoundTrips.EndsWithLower | src/routers/tasks.js:117 | a lower-cased name ends with a lower-case extension exactly when the name ends with it in any letter case |
| RouterRoundTrips.ImageExtensionIgnoresCase | src/routers/tasks.js:117 | the upload filter passes a name exactly when it ends in .jpg, .jpeg or .png in any letter case |

## Left out

- bcrypt hashing and comparison, JWT signing, the `validator.isEmail` check and the sharp PNG re-encoding are library calls. They enter as function parameters (`hash`, `verify`, `sign`, `isEmail`, `Env.toPng`).
- The ObjectIds MongoDB generates are parameters (`Env.newTaskId`, `Env.newImageId`). A new task takes the body's `_id` instead when the body gives one.
- The order in which MongoDB returns sorted documents is the parameter `Env.arrange`. The model keeps only the ids it returns that are matched documents.
- src/middleware/auth.js is not part of this model. The authenticated caller is an `Option` given to `Handle`.
- src/routers/users.js is not part of this model. The user-schema operations it calls are modelled at the schema level.
- src/emails/account.js, src/app.js and src/index.js are not modelled: they hold e-mail sending and server start-up.
- The `createdAt` and `updatedAt` timestamps are not modelled.
- Concurrency between requests is not modelled: each request runs alone against one store.
- JSON `null`, arrays and nested objects in bodies are not modelled. An object is a single value that every cast refuses.
- Body keys other than the schema paths and `_id`, such as `images` or `tokens`, are not modelled on create.
- RouterProperties.CreateIsolated: isolation is promised only when the key the task is saved under is taken in both stores or in neither. A body `_id` naming another user's task tells the stores apart (RouterProperties.CreateDetectsTakenIds), so the source does not hide which ids are taken.
- RouterProperties.HandleIsolatesUsers: for a create, it has the same restriction as RouterProperties.CreateIsolated. Reading and changing other users' tasks stay impossible, but detecting that an id is taken does not.
- Query-string values that are arrays are not modelled: every query value is one string.
- Casting.CastNumber: numeric strings such as "12" are not converted. Every string is refused.
- Casting.CastObjectId: 12-byte binary strings and ObjectId instances are not modelled. Only 24-digit hex text is.
- Text.ToLower: only ASCII letters are mapped. This is exact for the checks that use it, whose patterns are ASCII.
- Text.ParseInt: the model reads exact integers. It does not model precision loss on very long digit runs, or the `Infinity` limit.
- TaskRouter.ReadTaskImage: the `!image` branch (src/routers/tasks.js:173-175) is not modelled. Every stored image entry holds its bytes, so the branch cannot be reached here.
- TaskRouter.RemoveTaskImage: the success case is stated only for well-formed tasks. For any other task, the save could fail validation.
- TaskRouter.AttachImage: when the save fails validation on a malformed stored task, the model gives no reply. The 400 handler does not catch that error.
- UserModel.GenerateAuthToken: the JWT encoding and the secret are inside the `sign` parameter. Two tokens differ only as far as `sign` tells apart the (id, issue time) pairs it gets.
- Casting.Num: JSON numbers are integers here. Fractional values such as an age of 0.5, and NaN or Infinity, are not modelled.
- Text.NatToString: `String(n)` is modelled as plain decimal digits for every n. JavaScript switches to exponent form ("1e+21") from 10^21 on. So Text.ParseIntOfIntToString, Casting.CastStringOfNumber and RouterRoundTrips.PagingRoundTrip hold for the source only below 10^21.
- UserModel.SignupThenLogin: the login uses the trimmed password. The source trims the password on sign-up but not on login, so a password with surrounding spaces does not log in as typed.
- UserModel.FindByCredentials: requires the unique email index to hold (src/models/users.js:24). With duplicates, MongoDB's `findOne` pick is not modelled.
- UserModel.BuildUser: when a cast fails, only the cast failures are reported. Validator errors on the other paths of the same document are not added.
- UserModel.Save: the E11000 duplicate-key error is a `DuplicateEmail` value. The error document MongoDB sends is not modelled.
- Library error bodies are all one `LibraryError` payload. These are the Mongoose ValidationError or CastError objects, and `e.message` text.

=== FILE: casting.dfy ===
/** JSON request bodies and the way Mongoose's schema types cast their values
    (String, Boolean, Number, ObjectId) before validators run. */
module Casting {
  import opened Wrappers
  import opened Text

  /** A JSON value of a request body. `Obj` stands for a plain object, whose
      contents no cast in this model looks into. */
  datatype Value = Bool(b: bool) | Num(n: int) | Str(s: string) | Obj

  /** A parsed JSON request body: its keys and their values. */
  type Body = map<string, Value>

  /** How a document path reads from a body: the key is missing, or its value
      casts to the schema type, or the cast fails. */
  datatype Cast<T> = Absent | Cast(value: T) | CastFailed

  /** The String schema type: strings pass, numbers and booleans are
      converted with String(), plain objects are a CastError. */
  function CastString(v: Value): (r: Option<string>)
    ensures v.Obj? <==> r.None?
    ensures v.Str? ==> r == Some(v.s)
  {
    match v
    case Str(s) => Some(s)
    case Num(n) => Some(IntToString(n))
    case Bool(b) => Some(if b then "true" else "false")
    case Obj => None
  }

  const TrueValues: set<Value> := {Bool(true), Str("true"), Num(1), Str("1"), Str("yes")}
  const FalseValues: set<Value> := {Bool(false), Str("false"), Num(0), Str("0"), Str("no")}

  /** The Boolean schema type with Mongoose's default conversion lists; any
      other value (a number such as 123, an object) is a CastError. */
  function CastBoolean(v: Value): (r: Option<bool>)
    ensures r == Some(true) <==> v in TrueValues
    ensures r == Some(false) <==> v in FalseValues
  {
    match v
    case Bool(b) => Some(b)
    case Num(n) => if n == 1 then Some(true) else if n == 0 then Some(false) else None
    case Str(s) =>
      if s == "true" || s == "1" || s == "yes" then Some(true)
      else if s == "false" || s == "0" || s == "no" then Some(false)
      else None
    case Obj => None
  }

  /** The Number schema type: numbers pass and booleans become 1 or 0. */
  function CastNumber(v: Value): (r: Option<int>)
    ensures v.Num? ==> r == Some(v.n)
    ensures r.Some? <==> v.Num? || v.Bool?
  {
    match v
    case Num(n) => Some(n)
    case Bool(b) => Some(if b then 1 else 0)
    case Str(_) => None
    case Obj => None
  }

  predicate IsHexChar(c: char) {
    '0' <= c <= '9' || 'a' <= c <= 'f' || 'A' <= c <= 'F'
  }

  /** A 24-digit hexadecimal string, the text form of an ObjectId. */
  predicate IsObjectIdText(s: string) {
    |s| == 24 && forall i :: 0 <= i < |s| ==> IsHexChar(s[i])
  }

  /** The form ObjectId.toString() produces: 24 lower-case hexadecimal digits. */
  predicate IsCanonicalId(s: string) {
    IsObjectIdText(s) && forall i :: 0 <= i < |s| ==> !('A' <= s[i] <= 'F')
  }

  /** The ObjectId schema type: a 24-digit hex string becomes an ObjectId,
      whose text form is lower case; anything else is a CastError. */
  function CastObjectId(v: Value): (r: Option<string>)
    ensures r.Some? <==> v.Str? && IsObjectIdText(v.s)
    ensures r.Some? ==> IsCanonicalId(r.value)
    ensures v.Str? && IsCanonicalId(v.s) ==> r == Some(v.s)
    ensures r.Some? ==> |r.value| == 24 && forall i :: 0 <= i < 24 ==> r.value[i] == LowerChar(v.s[i])
  {
    match v
    case Str(s) =>
      if IsObjectIdText(s) then
        assert IsCanonicalId(s) ==> ToLower(s) == s by {
          if IsCanonicalId(s) {
            assert forall i :: 0 <= i < |s| ==> ToLower(s)[i] == s[i];
          }
        }
        assert forall i :: 0 <= i < |s| ==> IsHexChar(ToLower(s)[i]) && !('A' <= ToLower(s)[i] <= 'F');
        assert forall i :: 0 <= i < |s| ==> ToLower(s)[i] == LowerChar(s[i]) by {
          forall i | 0 <= i < |s| ensures ToLower(s)[i] == LowerChar(s[i]) {
            ToLowerAt(s, i);
          }
        }
        Some(ToLower(s))
      else None
    case _ => None
  }

  /** Two id texts name the same ObjectId exactly when they agree once ASCII
      letter case is ignored, so "AB…" and "ab…" find the same document. */
  lemma SameObjectId(a: string, b: string)
    requires IsObjectIdText(a) && IsObjectIdText(b)
    ensures CastObjectId(Str(a)) == CastObjectId(Str(b)) <==>
              forall i :: 0 <= i < 24 ==> LowerChar(a[i]) == LowerChar(b[i])
  {
    var ka, kb := CastObjectId(Str(a)).value, CastObjectId(Str(b)).value;
    if forall i :: 0 <= i < 24 ==> LowerChar(a[i]) == LowerChar(b[i]) {
      assert forall i :: 0 <= i < 24 ==> ka[i] == kb[i];
      assert ka == kb;
    }
  }

  /** Reads a String path of a document under construction. */
  function ReadString(doc: Body, key: string): Cast<string> {
    if key !in doc then Absent
    else match CastString(doc[key])
      case Some(s) => Cast(s)
      case None => CastFailed
  }

  /** The key holds a value that casts to a String with something other than
      white space in it: what a required `trim: true` path accepts. */
  predicate HasText(doc: Body, key: string) {
    key in doc && !doc[key].Obj? && !AllSpace(CastString(doc[key]).value)
  }

  /** Reads a String path declared with `trim: true`: the setter trims the
      cast string. */
  function ReadTrimmed(doc: Body, key: string): (r: Cast<string>)
    ensures r.Absent? <==> key !in doc
    ensures r.CastFailed? <==> key in doc && doc[key].Obj?
    ensures r.Cast? ==> Trimmed(r.value)
    ensures r.Cast? && r.value != "" <==> HasText(doc, key)
  {
    match ReadString(doc, key)
    case Cast(s) => Cast(Trim(s))
    case Absent => Absent
    case CastFailed => CastFailed
  }

  /** Reads a Boolean path of a document under construction. */
  function ReadBoolean(doc: Body, key: string): (r: Cast<bool>)
    ensures r.Absent? <==> key !in doc
    ensures r.Cast? ==> CastBoolean(doc[key]) == Some(r.value)
    ensures r.CastFailed? ==> CastBoolean(doc[key]).None?
  {
    if key !in doc then Absent
    else match CastBoolean(doc[key])
      case Some(b) => Cast(b)
      case None => CastFailed
  }

  /** Reads a Number path of a document under construction. */
  function ReadNumber(doc: Body, key: string): (r: Cast<int>)
    ensures r.Absent? <==> key !in doc
    ensures r.Cast? ==> CastNumber(doc[key]) == Some(r.value)
    ensures r.CastFailed? ==> CastNumber(doc[key]).None?
  {
    if key !in doc then Absent
    else match CastNumber(doc[key])
      case Some(n) => Cast(n)
      case None => CastFailed
  }

  /** Reads an ObjectId path of a document under construction. */
  function ReadObjectId(doc: Body, key: string): (r: Cast<string>)
    ensures r.Absent? <==> key !in doc
    ensures r.Cast? ==> CastObjectId(doc[key]) == Some(r.value)
    ensures r.CastFailed? ==> CastObjectId(doc[key]).None?
  {
    if key !in doc then Absent
    else match CastObjectId(doc[key])
      case Some(id) => Cast(id)
      case None => CastFailed
  }

  /** The path a failed cast reports, if any. */
  function FailedPath<T>(c: Cast<T>, key: string): (e: set<string>)
    ensures e == {} <==> !c.CastFailed?
    ensures e <= {key}
  {
    if c.CastFailed? then {key} else {}
  }

  /** A number sent where a String path is declared is stored as the text
      `String(n)`, and parseInt reads that text back as the same number. */
  lemma CastStringOfNumber(n: int)
    ensures CastString(Num(n)).Some? && ParseInt(CastString(Num(n)).value) == Some(n)
  {
    ParseIntOfIntToString(n);
  }

  /** A boolean cast to a Number and that number cast back to a Boolean is
      the boolean it started as. */
  lemma BooleanThroughNumber(b: bool)
    ensures CastNumber(Bool(b)).Some? && CastBoolean(Num(CastNumber(Bool(b)).value)) == Some(b)
  {
  }
}

=== FILE: round_trips.dfy ===
/** How each route of the `/tasks` router reads back what another one wrote,
    and how the list query reads back the text a client would send. */
module RouterRoundTrips {
  import opened Wrappers
  import opened Text
  import opened Casting
  import opened TaskModel
  import opened TaskRouter

  /** A task just created reads back, under its new id, as the body of the
      201 reply. */
  lemma CreateThenRead(tasks: Tasks, caller: UserId, body: Body, newId: TaskId)
    requires IsCanonicalId(caller) && IsCanonicalId(newId)
    requires Create(tasks, NewTask(body, caller), newId).0.status == 201
    ensures Read(Create(tasks, NewTask(body, caller), newId).1, caller, newId)
              == Create(tasks, NewTask(body, caller), newId).0.(status := 200)
  {
  }

  /** A task just updated reads back as the body of the 200 reply. */
  lemma UpdateThenRead(tasks: Tasks, caller: UserId, id: string, body: Body)
    requires IsObjectIdText(id)
    requires Update(tasks, caller, id, body).0.status == 200
    ensures Read(Update(tasks, caller, id, body).1, caller, id) == Update(tasks, caller, id, body).0
  {
  }

  /** A task just deleted is not found any more. */
  lemma DeleteThenRead(tasks: Tasks, caller: UserId, id: string)
    requires IsObjectIdText(id)
    requires Delete(tasks, caller, id).0.status == 200
    ensures Read(Delete(tasks, caller, id).1, caller, id) == Reply(404, NoContent)
  {
  }

  /** An image just attached is served back, as the re-encoded PNG, under its
      new id, provided that id names no earlier entry of the task. */
  lemma AttachThenReadImage(tasks: Tasks, caller: UserId, id: string, upload: Upload, env: Env)
    requires Succeeded(AttachImage(tasks, caller, id, Some(upload), env).0)
    requires forall i :: 0 <= i < |FindOwned(tasks, caller, id).task.images| ==>
               FindOwned(tasks, caller, id).task.images[i].id != env.newImageId
    ensures env.toPng(upload.bytes).Some?
    ensures ReadTaskImage(AttachImage(tasks, caller, id, Some(upload), env).1, caller, id, env.newImageId)
              == Reply(200, Png(env.toPng(upload.bytes).value))
  {
    var r := AttachImage(tasks, caller, id, Some(upload), env);
    var f := FindOwned(tasks, caller, id);
    var png := env.toPng(upload.bytes).value;
    var images := f.task.images + [Image(env.newImageId, png)];
    assert FindOwned(r.1, caller, id) == Found(f.id, r.1[f.id]);
    assert r.1[f.id].images == images;
    FindImageAppended(f.task.images, Image(env.newImageId, png));
  }

  /** An image just removed is not served any more. */
  lemma RemoveThenReadImage(tasks: Tasks, caller: UserId, id: string, imgid: string)
    requires RemoveTaskImage(tasks, caller, id, imgid).0.status == 200
    ensures ReadTaskImage(RemoveTaskImage(tasks, caller, id, imgid).1, caller, id, imgid).status == 404
  {
    var r := RemoveTaskImage(tasks, caller, id, imgid);
    var f := FindOwned(tasks, caller, id);
    assert FindOwned(r.1, caller, id) == Found(f.id, r.1[f.id]);
    assert r.1[f.id].images == RemoveImage(f.task.images, imgid);
  }

  /** When the database's ordering lists every matching document and the
      query sets neither `skip` nor `limit`, the reply holds every task of the
      caller that the `completed` filter admits. */
  lemma ListIsComplete(tasks: Tasks, caller: UserId, query: map<string, string>,
                       arrange: (Tasks, SortSpec) -> seq<TaskId>)
    requires "skip" !in query && "limit" !in query
    requires var c := Candidates(tasks, caller, ParseQuery(query).completed);
             forall id :: id in c ==> id in arrange(c, ParseQuery(query).sort)
    ensures List(tasks, caller, query, arrange).0.status == 200
    ensures var c := Candidates(tasks, caller, ParseQuery(query).completed);
            var vs := List(tasks, caller, query, arrange).0.payload.tasks;
            forall id :: id in c ==> exists i :: 0 <= i < |vs| && vs[i] == ToJson(id, tasks[id])
  {
    var opts := ParseQuery(query);
    var c := Candidates(tasks, caller, opts.completed);
    var ids := KeepKeys(arrange(c, opts.sort), c);
    assert Page(ids, None, None) == ids;
    var vs := List(tasks, caller, query, arrange).0.payload.tasks;
    assert vs == Listing(tasks, caller, opts, arrange);
    assert vs == Views(ids, c);
    forall id | id in c
      ensures exists i :: 0 <= i < |vs| && vs[i] == ToJson(id, tasks[id])
    {
      var i :| 0 <= i < |ids| && ids[i] == id;
      assert vs[i] == ToJson(id, c[id]);
    }
  }

  /** The query string `?limit=1&skip=1` reads as limit 1 and skip 1, with
      no filter and no sort. */
  lemma SecondPageQuery(query: map<string, string>)
    requires query == map["limit" := "1", "skip" := "1"]
    ensures ParseQuery(query) == ListOptions(None, Unsorted, Some(1), Some(1))
  {
    assert "sortby" !in query && "completed" !in query;
    assert query["limit"] == IntToString(1) && query["skip"] == IntToString(1);
    ParseIntOfIntToString(1);
  }

  /** Skip 1 and limit 1 over an ordering that lists the caller's tasks
      keep exactly the second of them. */
  lemma SecondPageListing(tasks: Tasks, caller: UserId, arrange: (Tasks, SortSpec) -> seq<TaskId>)
    requires var c := Candidates(tasks, caller, None);
             var order := arrange(c, Unsorted);
             |order| >= 2 && forall i :: 0 <= i < |order| ==> order[i] in c
    ensures var order := arrange(Candidates(tasks, caller, None), Unsorted);
            Listing(tasks, caller, ListOptions(None, Unsorted, Some(1), Some(1)), arrange)
              == [ToJson(order[1], tasks[order[1]])]
  {
    var c := Candidates(tasks, caller, None);
    var order := arrange(c, Unsorted);
    assert KeepKeys(order, c) == order;
    var listed := Listing(tasks, caller, ListOptions(None, Unsorted, Some(1), Some(1)), arrange);
    assert |listed| == 1 && listed[0].id == order[1];
  }

  /** `?limit=1&skip=1` over an ordering that lists the caller's tasks
      answers exactly the second of them. */
  lemma ListSecondPage(tasks: Tasks, caller: UserId, arrange: (Tasks, SortSpec) -> seq<TaskId>,
                       query: map<string, string>)
    requires query == map["limit" := "1", "skip" := "1"]
    requires var c := Candidates(tasks, caller, None);
             var order := arrange(c, Unsorted);
             |order| >= 2 && forall i :: 0 <= i < |order| ==> order[i] in c
    ensures var order := arrange(Candidates(tasks, caller, None), Unsorted);
            List(tasks, caller, query, arrange).0 == Reply(200, TaskListJson([ToJson(order[1], tasks[order[1]])]))
  {
    SecondPageQuery(query);
    SecondPageListing(tasks, caller, arrange);
  }

  /** A body with only a non-blank, already trimmed description creates a
      task with that description, `completed` false, the caller as owner and
      no images. */
  lemma CreateWithDescription(tasks: Tasks, caller: UserId, description: string, body: Body, newId: TaskId)
    requires IsCanonicalId(caller) && newId !in tasks
    requires description != "" && Trimmed(description)
    requires body == map["description" := Str(description)]
    ensures var r := Create(tasks, NewTask(body, caller), newId);
            r.0.status == 201 && r.1[newId] == Task(description, false, caller, [])
  {
    assert "description" in body && body["description"] == Str(description);
    assert "completed" !in body && "_id" !in body;
    TrimTrimmed(description);
    assert ReadTrimmed(body, "description") == Cast(description);
    assert HasText(body, "description");
    assert NewTask(body, caller).Success?;
  }

  /** A valid update of the caller's own well-formed task is applied. */
  lemma UpdateAccepted(tasks: Tasks, caller: UserId, id: string, body: Body)
    requires IsObjectIdText(id)
    requires var k := CastObjectId(Str(id)).value; k in tasks && tasks[k].owner == caller && WellFormed(tasks[k])
    requires body.Keys <= UpdatablePaths
    requires "description" in body ==> HasText(body, "description")
    requires "completed" in body ==> CastBoolean(body["completed"]).Some?
    ensures Update(tasks, caller, id, body).0.status == 200
  {
  }

  /** A well-formed upload to the caller's own well-formed task is stored. */
  lemma AttachAccepted(tasks: Tasks, caller: UserId, id: string, upload: Upload, env: Env)
    requires IsObjectIdText(id)
    requires var k := CastObjectId(Str(id)).value; k in tasks && tasks[k].owner == caller && WellFormed(tasks[k])
    requires HasImageExtension(upload.originalName) && |upload.bytes| <= MaxImageBytes
    requires env.toPng(upload.bytes).Some?
    ensures AttachImage(tasks, caller, id, Some(upload), env).0 == Reply(200, NoContent)
  {
  }

  /** A `sortby` written as field:desc or field:asc, with no ':' in the field,
      is read back as that field and direction. */
  lemma SortByRoundTrip(field: string, descending: bool)
    requires field != [] && ':' !in field
    ensures ParseQuery(map["sortby" := field + ":" + (if descending then "desc" else "asc")]).sort
              == SortBy(field, if descending then -1 else 1)
  {
    var dir := if descending then "desc" else "asc";
    var s := field + ":" + dir;
    SplitJoin([field, dir], ':');
    assert Join([field, dir], ':') == s;
  }

  /** A `limit` or `skip` written with String(n) is read back as n. */
  lemma PagingRoundTrip(limit: int, skip: int)
    ensures var o := ParseQuery(map["limit" := IntToString(limit), "skip" := IntToString(skip)]);
            o.limit == Some(limit) && o.skip == Some(skip)
  {
    ParseIntOfIntToString(limit);
    ParseIntOfIntToString(skip);
  }

  /** Lower-casing and then comparing a suffix with a lower-case extension
      is matching the extension at the end while ignoring letter case. */
  lemma EndsWithLower(name: string, ext: string)
    ensures EndsWith(ToLower(name), ext) <==> |ext| <= |name| && MatchesIgnoringCase(name, ext, |name| - |ext|)
  {
    var lower := ToLower(name);
    if |ext| <= |name| {
      var from := |name| - |ext|;
      if EndsWith(lower, ext) {
        forall j | 0 <= j < |ext| ensures LowerChar(name[from + j]) == ext[j] {
          assert lower[from..][j] == lower[from + j];
        }
      }
      if MatchesIgnoringCase(name, ext, from) {
        assert lower[from..] == ext;
      }
    }
  }

  /** The upload filter ignores ASCII letter case: a name passes exactly when
      it ends, in any case, in one of the three extensions. */
  lemma ImageExtensionIgnoresCase(name: string)
    ensures HasImageExtension(name) <==>
      || (4 <= |name| && MatchesIgnoringCase(name, ".jpg", |name| - 4))
      || (5 <= |name| && MatchesIgnoringCase(name, ".jpeg", |name| - 5))
      || (4 <= |name| && MatchesIgnoringCase(name, ".png", |name| - 4))
  {
    EndsWithLower(name, ".jpg");
    EndsWithLower(name, ".jpeg");
    EndsWithLower(name, ".png");
  }
}

=== FILE: router_properties.dfy ===
/** Properties of the `/tasks` router across requests: what one user's
    requests can see and change, which invariant every route keeps, and how
    the routes read back what the others write. */
module RouterProperties {
  import opened Wrappers
  import opened Casting
  import opened TaskModel
  import opened TaskRouter

  /* ---------------- isolation between users ---------------- */

  /** Replacing one of the caller's tasks by another of the caller's tasks
      changes the caller's view the same way in any two collections the
      caller sees alike. */
  lemma OwnedByStore(t1: Tasks, t2: Tasks, caller: UserId, k: TaskId, v: Task)
    requires OwnedBy(t1, caller) == OwnedBy(t2, caller)
    requires (k in t1 && t1[k].owner == caller) || v.owner == caller || k !in t1
    requires (k in t2 && t2[k].owner == caller) || v.owner == caller || k !in t2
    ensures OwnedBy(t1[k := v], caller) == OwnedBy(t2[k := v], caller)
  {
    var a, b := OwnedBy(t1[k := v], caller), OwnedBy(t2[k := v], caller);
    forall id ensures id in a <==> id in b {
      if id != k {
        assert id in a <==> id in OwnedBy(t1, caller);
        assert id in b <==> id in OwnedBy(t2, caller);
      }
    }
    forall id | id in a ensures a[id] == b[id] {
      if id != k {
        assert a[id] == OwnedBy(t1, caller)[id];
      }
    }
  }

  /** Removing the same key from two collections the caller sees alike
      leaves them alike. */
  lemma OwnedByRemove(t1: Tasks, t2: Tasks, caller: UserId, k: TaskId)
    requires OwnedBy(t1, caller) == OwnedBy(t2, caller)
    ensures OwnedBy(t1 - {k}, caller) == OwnedBy(t2 - {k}, caller)
  {
    var a, b := OwnedBy(t1 - {k}, caller), OwnedBy(t2 - {k}, caller);
    forall id ensures id in a <==> id in b {
      if id != k {
        assert id in a <==> id in OwnedBy(t1, caller);
      }
    }
    forall id | id in a ensures a[id] == b[id] {
      assert a[id] == OwnedBy(t1, caller)[id];
    }
  }

  /** The lookup every route performs sees only the caller's own tasks. */
  lemma FindOwnedSeesOnlyOwn(t1: Tasks, t2: Tasks, caller: UserId, param: string)
    requires OwnedBy(t1, caller) == OwnedBy(t2, caller)
    ensures FindOwned(t1, caller, param) == FindOwned(t2, caller, param)
  {
    match CastObjectId(Str(param))
    case None =>
    case Some(id) =>
      assert id in t1 && t1[id].owner == caller <==> id in OwnedBy(t1, caller);
      assert id in t2 && t2[id].owner == caller <==> id in OwnedBy(t2, caller);
  }

  /** The documents a list query matches are among the caller's own. */
  lemma CandidatesSeeOnlyOwn(t1: Tasks, t2: Tasks, caller: UserId, completed: Option<bool>)
    requires OwnedBy(t1, caller) == OwnedBy(t2, caller)
    ensures Candidates(t1, caller, completed) == Candidates(t2, caller, completed)
  {
    var a, b := Candidates(t1, caller, completed), Candidates(t2, caller, completed);
    forall id ensures id in a <==> id in b {
      assert id in t1 && t1[id].owner == caller <==> id in OwnedBy(t1, caller);
      assert id in t2 && t2[id].owner == caller <==> id in OwnedBy(t2, caller);
    }
    forall id | id in a ensures a[id] == b[id] {
      assert OwnedBy(t1, caller)[id] == t1[id];
      assert OwnedBy(t2, caller)[id] == t2[id];
    }
  }

  /** Creating a task replies alike and leaves the caller's tasks alike in
      two collections the caller sees alike, as long as the key the task is
      saved under is taken in both or in neither. CreateDetectsTakenIds shows
      that the source gives no more than this. */
  lemma CreateIsolated(t1: Tasks, t2: Tasks, caller: UserId, built: Result<Task, set<string>>, newId: TaskId)
    requires OwnedBy(t1, caller) == OwnedBy(t2, caller)
    requires newId in t1 <==> newId in t2
    ensures Create(t1, built, newId).0 == Create(t2, built, newId).0
    ensures OwnedBy(Create(t1, built, newId).1, caller) == OwnedBy(Create(t2, built, newId).1, caller)
  {
    if built.Success? && newId !in t1 {
      OwnedByStore(t1, t2, caller, newId, built.value);
    }
  }

  /** Where another user's task shows through: a create whose body names
      that task's `_id` is refused with MongoDB's duplicate key error, while
      the same request succeeds once that task is gone, although the caller
      owns the same tasks in both collections. */
  lemma CreateDetectsTakenIds(tasks: Tasks, caller: UserId, body: Body, env: Env)
    requires NewTask(body, caller).Success? && "_id" in body
    requires NewTaskId(body, env.newTaskId) in tasks
    requires tasks[NewTaskId(body, env.newTaskId)].owner != caller
    ensures var k := NewTaskId(body, env.newTaskId);
            && OwnedBy(tasks, caller) == OwnedBy(tasks - {k}, caller)
            && Handle(tasks, Some(caller), CreateTask(body), env).0 == Reply(400, LibraryError)
            && Handle(tasks - {k}, Some(caller), CreateTask(body), env).0.status == 201
  {
    var k := NewTaskId(body, env.newTaskId);
    var built := NewTask(body, caller);
    assert Handle(tasks, Some(caller), CreateTask(body), env) == Create(tasks, built, k);
    assert Handle(tasks - {k}, Some(caller), CreateTask(body), env) == Create(tasks - {k}, built, k);
    OwnedByRemoveOther(tasks, caller, k);
  }

  /** Removing a task of another user leaves the caller's tasks as they were. */
  lemma OwnedByRemoveOther(tasks: Tasks, caller: UserId, k: TaskId)
    requires k in tasks && tasks[k].owner != caller
    ensures OwnedBy(tasks, caller) == OwnedBy(tasks - {k}, caller)
  {
    var a, b := OwnedBy(tasks, caller), OwnedBy(tasks - {k}, caller);
    assert a.Keys == b.Keys;
  }

  /** Whatever other users own, updating a task replies alike and leaves the caller's
      tasks alike. */
  lemma UpdateIsolated(t1: Tasks, t2: Tasks, caller: UserId, id: string, body: Body)
    requires OwnedBy(t1, caller) == OwnedBy(t2, caller)
    ensures Update(t1, caller, id, body).0 == Update(t2, caller, id, body).0
    ensures OwnedBy(Update(t1, caller, id, body).1, caller) == OwnedBy(Update(t2, caller, id, body).1, caller)
  {
    FindOwnedSeesOnlyOwn(t1, t2, caller, id);
    var f := FindOwned(t1, caller, id);
    if body.Keys <= UpdatablePaths && f.Found? && ApplyUpdates(f.task, body).Success? {
      OwnedByStore(t1, t2, caller, f.id, ApplyUpdates(f.task, body).value);
    }
  }

  /** Whatever other users own, deleting a task replies alike and leaves the caller's
      tasks alike. */
  lemma DeleteIsolated(t1: Tasks, t2: Tasks, caller: UserId, id: string)
    requires OwnedBy(t1, caller) == OwnedBy(t2, caller)
    ensures Delete(t1, caller, id).0 == Delete(t2, caller, id).0
    ensures OwnedBy(Delete(t1, caller, id).1, caller) == OwnedBy(Delete(t2, caller, id).1, caller)
  {
    FindOwnedSeesOnlyOwn(t1, t2, caller, id);
    if FindOwned(t1, caller, id).Found? {
      OwnedByRemove(t1, t2, caller, FindOwned(t1, caller, id).id);
    }
  }

  /** Whatever other users own, attaching an image replies alike and leaves the caller's
      tasks alike. */
  lemma AttachImageIsolated(t1: Tasks, t2: Tasks, caller: UserId, id: string, file: Option<Upload>, env: Env)
    requires OwnedBy(t1, caller) == OwnedBy(t2, caller)
    ensures AttachImage(t1, caller, id, file, env).0 == AttachImage(t2, caller, id, file, env).0
    ensures OwnedBy(AttachImage(t1, caller, id, file, env).1, caller) == OwnedBy(AttachImage(t2, caller, id, file, env).1, caller)
  {
    FindOwnedSeesOnlyOwn(t1, t2, caller, id);
    var f := FindOwned(t1, caller, id);
    if f.Found? && file.Some? && env.toPng(file.value.bytes).Some? {
      var t' := f.task.(images := f.task.images + [Image(env.newImageId, env.toPng(file.value.bytes).value)]);
      OwnedByStore(t1, t2, caller, f.id, t');
    }
  }

  /** Whatever other users own, removing an image replies alike and leaves the caller's
      tasks alike. */
  lemma RemoveTaskImageIsolated(t1: Tasks, t2: Tasks, caller: UserId, id: string, imgid: string)
    requires OwnedBy(t1, caller) == OwnedBy(t2, caller)
    ensures RemoveTaskImage(t1, caller, id, imgid).0 == RemoveTaskImage(t2, caller, id, imgid).0
    ensures OwnedBy(RemoveTaskImage(t1, caller, id, imgid).1, caller) == OwnedBy(RemoveTaskImage(t2, caller, id, imgid).1, caller)
  {
    FindOwnedSeesOnlyOwn(t1, t2, caller, id);
    var f := FindOwned(t1, caller, id);
    if f.Found? && RemoveFromImages(f.task.images, imgid).Success? {
      OwnedByStore(t1, t2, caller, f.id, f.task.(images := RemoveFromImages(f.task.images, imgid).value));
    }
  }

  /** Two collections that hold the same tasks for the caller give the caller
      the same reply to every request and are left holding the same tasks for
      the caller: nothing another user owns can be read or changed through
      these routes. It can be detected only through the key a create saves
      under, which the body's `_id` chooses (CreateDetectsTakenIds), so that
      key is taken in both collections or in neither; a generated id is
      fresh in both. */
  lemma HandleIsolatesUsers(t1: Tasks, t2: Tasks, caller: UserId, req: Request, env: Env)
    requires OwnedBy(t1, caller) == OwnedBy(t2, caller)
    requires req.CreateTask? ==> (NewTaskId(req.body, env.newTaskId) in t1 <==> NewTaskId(req.body, env.newTaskId) in t2)
    ensures Handle(t1, Some(caller), req, env).0 == Handle(t2, Some(caller), req, env).0
    ensures OwnedBy(Handle(t1, Some(caller), req, env).1, caller) == OwnedBy(Handle(t2, Some(caller), req, env).1, caller)
  {
    match req
    case CreateTask(body) => CreateIsolated(t1, t2, caller, NewTask(body, caller), NewTaskId(body, env.newTaskId));
    case ListTasks(query) => CandidatesSeeOnlyOwn(t1, t2, caller, ParseQuery(query).completed);
    case ReadTask(id) => FindOwnedSeesOnlyOwn(t1, t2, caller, id);
    case UpdateTask(id, body) => UpdateIsolated(t1, t2, caller, id, body);
    case DeleteTask(id) => DeleteIsolated(t1, t2, caller, id);
    case AddImage(id, file) => AttachImageIsolated(t1, t2, caller, id, file, env);
    case DeleteImage(id, imgid) => RemoveTaskImageIsolated(t1, t2, caller, id, imgid);
    case ReadImage(id, imgid) => FindOwnedSeesOnlyOwn(t1, t2, caller, id);
  }

  /** Storing one of the caller's tasks leaves everybody else's as they were. */
  lemma NotOwnedByStore(tasks: Tasks, caller: UserId, k: TaskId, v: Task)
    requires k in tasks ==> tasks[k].owner == caller
    requires v.owner == caller
    ensures NotOwnedBy(tasks[k := v], caller) == NotOwnedBy(tasks, caller)
  {
    var a, b := NotOwnedBy(tasks[k := v], caller), NotOwnedBy(tasks, caller);
    assert a.Keys == b.Keys;
  }

  /** Removing one of the caller's tasks leaves everybody else's as they were. */
  lemma NotOwnedByRemove(tasks: Tasks, caller: UserId, k: TaskId)
    requires k in tasks ==> tasks[k].owner == caller
    ensures NotOwnedBy(tasks - {k}, caller) == NotOwnedBy(tasks, caller)
  {
    var a, b := NotOwnedBy(tasks - {k}, caller), NotOwnedBy(tasks, caller);
    assert a.Keys == b.Keys;
  }

  /** Other users' tasks survive as they are: a created task is the caller's. */
  lemma CreateKeepsOthersTasks(tasks: Tasks, caller: UserId, built: Result<Task, set<string>>, newId: TaskId)
    requires built.Success? ==> built.value.owner == caller
    ensures NotOwnedBy(Create(tasks, built, newId).1, caller) == NotOwnedBy(tasks, caller)
  {
    if built.Success? && newId !in tasks {
      NotOwnedByStore(tasks, caller, newId, built.value);
    }
  }

  /** Other users' tasks survive as they are: an update reaches only a task the caller owns. */
  lemma UpdateKeepsOthersTasks(tasks: Tasks, caller: UserId, id: string, body: Body)
    ensures NotOwnedBy(Update(tasks, caller, id, body).1, caller) == NotOwnedBy(tasks, caller)
  {
    var f := FindOwned(tasks, caller, id);
    if body.Keys <= UpdatablePaths && f.Found? && ApplyUpdates(f.task, body).Success? {
      NotOwnedByStore(tasks, caller, f.id, ApplyUpdates(f.task, body).value);
    }
  }

  /** Other users' tasks survive as they are: a delete reaches only a task the caller owns. */
  lemma DeleteKeepsOthersTasks(tasks: Tasks, caller: UserId, id: string)
    ensures NotOwnedBy(Delete(tasks, caller, id).1, caller) == NotOwnedBy(tasks, caller)
  {
    var f := FindOwned(tasks, caller, id);
    if f.Found? {
      NotOwnedByRemove(tasks, caller, f.id);
    }
  }

  /** Other users' tasks survive as they are: an image is attached only to a task the caller owns. */
  lemma AttachImageKeepsOthersTasks(tasks: Tasks, caller: UserId, id: string, file: Option<Upload>, env: Env)
    ensures NotOwnedBy(AttachImage(tasks, caller, id, file, env).1, caller) == NotOwnedBy(tasks, caller)
  {
    var f := FindOwned(tasks, caller, id);
    if f.Found? && file.Some? && env.toPng(file.value.bytes).Some? {
      NotOwnedByStore(tasks, caller, f.id,
        f.task.(images := f.task.images + [Image(env.newImageId, env.toPng(file.value.bytes).value)]));
    }
  }

  /** Other users' tasks survive as they are: an image is removed only from a task the caller owns. */
  lemma RemoveTaskImageKeepsOthersTasks(tasks: Tasks, caller: UserId, id: string, imgid: string)
    ensures NotOwnedBy(RemoveTaskImage(tasks, caller, id, imgid).1, caller) == NotOwnedBy(tasks, caller)
  {
    var f := FindOwned(tasks, caller, id);
    if f.Found? && RemoveFromImages(f.task.images, imgid).Success? {
      NotOwnedByStore(tasks, caller, f.id, f.task.(images := RemoveFromImages(f.task.images, imgid).value));
    }
  }

  /** No request changes, adds or removes a task its caller does not own. */
  lemma HandleKeepsOthersTasks(tasks: Tasks, caller: UserId, req: Request, env: Env)
    requires IsCanonicalId(caller)
    ensures NotOwnedBy(Handle(tasks, Some(caller), req, env).1, caller) == NotOwnedBy(tasks, caller)
  {
    match req
    case CreateTask(body) => CreateKeepsOthersTasks(tasks, caller, NewTask(body, caller), NewTaskId(body, env.newTaskId));
    case ListTasks(_) =>
    case ReadTask(_) =>
    case UpdateTask(id, body) => UpdateKeepsOthersTasks(tasks, caller, id, body);
    case DeleteTask(id) => DeleteKeepsOthersTasks(tasks, caller, id);
    case AddImage(id, file) => AttachImageKeepsOthersTasks(tasks, caller, id, file, env);
    case DeleteImage(id, imgid) => RemoveTaskImageKeepsOthersTasks(tasks, caller, id, imgid);
    case ReadImage(_, _) =>
  }

  /* ---------------- the stored-task invariant ---------------- */

  /** The stored-task invariant survives: a created task passed validation. */
  lemma CreateKeepsTasksValid(tasks: Tasks, built: Result<Task, set<string>>, newId: TaskId)
    requires ValidTasks(tasks)
    requires built.Success? ==> WellFormed(built.value)
    ensures ValidTasks(Create(tasks, built, newId).1)
  {
  }

  /** The stored-task invariant survives: an update is stored only once it validates. */
  lemma UpdateKeepsTasksValid(tasks: Tasks, caller: UserId, id: string, body: Body)
    requires ValidTasks(tasks)
    ensures ValidTasks(Update(tasks, caller, id, body).1)
  {
  }

  /** The stored-task invariant survives: an image changes only the images array. */
  lemma AttachImageKeepsTasksValid(tasks: Tasks, caller: UserId, id: string, file: Option<Upload>, env: Env)
    requires ValidTasks(tasks)
    ensures ValidTasks(AttachImage(tasks, caller, id, file, env).1)
  {
  }

  /** The stored-task invariant survives: an image removal changes only the images array. */
  lemma RemoveTaskImageKeepsTasksValid(tasks: Tasks, caller: UserId, id: string, imgid: string)
    requires ValidTasks(tasks)
    ensures ValidTasks(RemoveTaskImage(tasks, caller, id, imgid).1)
  {
  }

  /** Every route keeps every stored task well formed. */
  lemma HandleKeepsTasksValid(tasks: Tasks, auth: Option<UserId>, req: Request, env: Env)
    requires ValidTasks(tasks)
    ensures ValidTasks(Handle(tasks, auth, req, env).1)
  {
    if auth.Some? {
      match req
      case CreateTask(body) => CreateKeepsTasksValid(tasks, NewTask(body, auth.value), NewTaskId(body, env.newTaskId));
      case ListTasks(_) =>
      case ReadTask(_) =>
      case UpdateTask(id, body) => UpdateKeepsTasksValid(tasks, auth.value, id, body);
      case DeleteTask(id) =>
      case AddImage(id, file) => AttachImageKeepsTasksValid(tasks, auth.value, id, file, env);
      case DeleteImage(id, imgid) => RemoveTaskImageKeepsTasksValid(tasks, auth.value, id, imgid);
      case ReadImage(_, _) =>
    }
  }
}

=== FILE: task_model.dfy ===
/** The Task schema of src/models/tasks.js: its paths, how a document is built
    from a body and validated, its JSON form, and the operations on its
    ordered list of images. */
module TaskModel {
  import opened Wrappers
  import opened Text
  import opened Casting

  /** Text form of a task's ObjectId. */
  type TaskId = string
  /** Text form of a user's ObjectId. */
  type UserId = string

  /** One entry of a task's `images` array: its own ObjectId and the PNG bytes. */
  datatype Image = Image(id: string, blob: seq<bv8>)

  /** A stored task document (timestamps are not modelled). */
  datatype Task = Task(description: string, completed: bool, owner: UserId, images: seq<Image>)

  /** The paths that validation can report. */
  const TaskPaths: set<string> := {"description", "completed", "owner"}

  /** What every task that passed validation satisfies: a non-empty trimmed
      description and an owner that is an ObjectId. */
  predicate WellFormed(t: Task) {
    t.description != "" && Trimmed(t.description) && IsCanonicalId(t.owner)
  }

  /** A collection where every task is well formed. */
  predicate ValidTasks(tasks: map<TaskId, Task>) {
    forall id :: id in tasks ==> WellFormed(tasks[id])
  }

  /** `new Task(doc)` and the validation `save` runs before inserting it:
      `description` is required (a String, non-empty once trimmed), `completed`
      defaults to false and must cast to a Boolean, `owner` is required and
      must cast to an ObjectId. A failure reports every failing path. */
  function BuildTask(doc: Body): (r: Result<Task, set<string>>)
    ensures r.Success? ==> WellFormed(r.value) && r.value.images == []
    ensures r.Success? ==> ReadTrimmed(doc, "description") == Cast(r.value.description)
    ensures r.Success? ==> r.value.completed == ("completed" in doc && CastBoolean(doc["completed"]) == Some(true))
    ensures r.Success? ==> "owner" in doc && CastObjectId(doc["owner"]) == Some(r.value.owner)
    ensures r.Failure? ==> r.error != {} && r.error <= TaskPaths
    ensures "description" !in doc ==> r.Failure? && "description" in r.error
    ensures "description" in doc && doc["description"].Obj? ==> r.Failure? && "description" in r.error
    ensures "description" in doc && doc["description"].Str? && AllSpace(doc["description"].s) ==>
              r.Failure? && "description" in r.error
    ensures "completed" in doc && CastBoolean(doc["completed"]).None? ==> r.Failure? && "completed" in r.error
    ensures "owner" !in doc ==> r.Failure? && "owner" in r.error
    ensures r.Success? <==>
              && HasText(doc, "description")
              && ("completed" in doc ==> CastBoolean(doc["completed"]).Some?)
              && "owner" in doc && CastObjectId(doc["owner"]).Some?
  {
    var d := ReadTrimmed(doc, "description");
    var c := ReadBoolean(doc, "completed");
    var o := ReadObjectId(doc, "owner");
    var errs :=
      (if d.Cast? && d.value != "" then {} else {"description"})
      + (if c.CastFailed? then {"completed"} else {})
      + (if o.Cast? then {} else {"owner"});
    if errs == {} then
      Success(Task(d.value, c.Cast? && c.value, o.value, []))
    else
      Failure(errs)
  }

  /** The required validators `save` runs on a task document: the failing paths. */
  function SaveErrors(t: Task): (errs: set<string>)
    ensures errs <= TaskPaths - {"completed"}
    ensures "description" in errs <==> t.description == ""
    ensures "owner" in errs <==> !IsCanonicalId(t.owner)
    ensures WellFormed(t) ==> errs == {}
  {
    (if t.description == "" then {"description"} else {})
    + (if IsCanonicalId(t.owner) then {} else {"owner"})
  }

  /** The paths a PATCH may assign. */
  const UpdatablePaths: set<string> := {"description", "completed"}

  /** `task[key] = body[key]` for each key followed by `save`: the update
      either applies in full or fails with the failing paths and yields no
      document at all. Paths the body does not name keep their values. */
  function ApplyUpdates(t: Task, body: Body): (r: Result<Task, set<string>>)
    ensures r.Success? ==> r.value.owner == t.owner && r.value.images == t.images
    ensures r.Success? && "description" !in body ==> r.value.description == t.description
    ensures r.Success? && "description" in body ==> ReadTrimmed(body, "description") == Cast(r.value.description)
    ensures r.Success? && "completed" !in body ==> r.value.completed == t.completed
    ensures r.Success? && "completed" in body ==> CastBoolean(body["completed"]) == Some(r.value.completed)
    ensures r.Success? ==> SaveErrors(r.value) == {}
    ensures r.Success? && WellFormed(t) ==> WellFormed(r.value)
    ensures r.Failure? ==> r.error != {} && r.error <= TaskPaths
    ensures r.Failure? && WellFormed(t) ==> r.error <= UpdatablePaths
    ensures "completed" in body && CastBoolean(body["completed"]).None? ==> r.Failure?
    ensures "description" in body && body["description"].Obj? ==> r.Failure?
    ensures "description" in body && body["description"].Str? && AllSpace(body["description"].s) ==> r.Failure?
    ensures WellFormed(t) && body.Keys !! UpdatablePaths ==> r == Success(t)
    ensures WellFormed(t) ==>
              (r.Success? <==>
                 && ("description" in body ==> HasText(body, "description"))
                 && ("completed" in body ==> CastBoolean(body["completed"]).Some?))
  {
    var d := if "description" in body then ReadTrimmed(body, "description") else Cast(t.description);
    var c := ReadBoolean(body, "completed");
    var updated := t.(description := if d.Cast? then d.value else t.description,
                      completed := if c.Cast? then c.value else t.completed);
    var castErrs := (if d.Cast? then {} else {"description"}) + (if c.CastFailed? then {"completed"} else {});
    assert castErrs <= UpdatablePaths;
    var saveErrs := SaveErrors(updated);
    assert IsCanonicalId(t.owner) ==> saveErrs <= UpdatablePaths;
    var errs := castErrs + saveErrs;
    if errs == {} then Success(updated) else Failure(errs)
  }

  /** The `images` entries as `toJSON` leaves them: the ids without the blobs. */
  function ImageIds(images: seq<Image>): (ids: seq<string>)
    ensures |ids| == |images|
    ensures forall i :: 0 <= i < |images| ==> ids[i] == images[i].id
  {
    if |images| == 0 then [] else [images[0].id] + ImageIds(images[1..])
  }

  /** A task as sent in a response. */
  datatype TaskView = TaskView(id: TaskId, description: string, completed: bool, owner: UserId, imageIds: seq<string>)

  /** `toJSON`: every field as stored, and each image entry reduced to its id,
      same number of entries in the same order. */
  function ToJson(id: TaskId, t: Task): (v: TaskView)
    ensures v.id == id && v.description == t.description && v.completed == t.completed && v.owner == t.owner
    ensures |v.imageIds| == |t.images|
    ensures forall i :: 0 <= i < |t.images| ==> v.imageIds[i] == t.images[i].id
  {
    TaskView(id, t.description, t.completed, t.owner, ImageIds(t.images))
  }

  /** Two tasks that differ only in their image blobs serialize identically:
      no response built from `toJSON` carries an image. */
  lemma ToJsonIgnoresBlobs(id: TaskId, t: Task, u: Task)
    requires t.description == u.description && t.completed == u.completed && t.owner == u.owner
    requires |t.images| == |u.images|
    requires forall i :: 0 <= i < |t.images| ==> t.images[i].id == u.images[i].id
    ensures ToJson(id, t) == ToJson(id, u)
  {
    assert ImageIds(t.images) == ImageIds(u.images);
  }

  /** The tasks whose owner is `u`: the `tasks` virtual of the User schema. */
  function OwnedBy(tasks: map<TaskId, Task>, u: UserId): (m: map<TaskId, Task>)
    ensures forall id :: id in m <==> id in tasks && tasks[id].owner == u
    ensures forall id :: id in m ==> m[id] == tasks[id]
  {
    map id | id in tasks && tasks[id].owner == u :: tasks[id]
  }

  /** The tasks whose owner is anybody but `u`. */
  function NotOwnedBy(tasks: map<TaskId, Task>, u: UserId): (m: map<TaskId, Task>)
    ensures forall id :: id in m <==> id in tasks && tasks[id].owner != u
    ensures forall id :: id in m ==> m[id] == tasks[id]
  {
    map id | id in tasks && tasks[id].owner != u :: tasks[id]
  }

  /** How many entries of `images` carry the id `imgid`. */
  function CountId(images: seq<Image>, imgid: string): nat {
    if |images| == 0 then 0
    else (if images[0].id == imgid then 1 else 0) + CountId(images[1..], imgid)
  }

  /** `a` is `b` with some entries left out and the rest in their order. */
  predicate IsSubsequence<T(==)>(a: seq<T>, b: seq<T>)
    decreases |b|
  {
    if |a| == 0 then true
    else if |b| == 0 then false
    else (a[0] == b[0] && IsSubsequence(a[1..], b[1..])) || IsSubsequence(a, b[1..])
  }

  /** `images.filter(val => val._id.toString() !== imgid)`. */
  function RemoveImage(images: seq<Image>, imgid: string): (r: seq<Image>)
    ensures forall i :: 0 <= i < |r| ==> r[i].id != imgid
    ensures forall x :: x in r ==> x in images
  {
    if |images| == 0 then []
    else (if images[0].id != imgid then [images[0]] else []) + RemoveImage(images[1..], imgid)
  }

  /** The filter removes exactly the entries with that id: what remains keeps
      its order, and only the matching entries are gone. */
  lemma {:induction false} RemoveImageExactly(images: seq<Image>, imgid: string)
    ensures IsSubsequence(RemoveImage(images, imgid), images)
    ensures |RemoveImage(images, imgid)| + CountId(images, imgid) == |images|
  {
    if |images| > 0 {
      var rest := RemoveImage(images[1..], imgid);
      RemoveImageExactly(images[1..], imgid);
      if images[0].id != imgid {
        assert RemoveImage(images, imgid) == [images[0]] + rest;
        assert ([images[0]] + rest)[1..] == rest;
      } else {
        assert RemoveImage(images, imgid) == rest;
      }
    }
  }

  /** The filter keeps the whole list exactly when no entry has that id,
      which is how the route tells "Image not found". */
  lemma {:induction false} RemoveImageKeepsLength(images: seq<Image>, imgid: string)
    ensures |RemoveImage(images, imgid)| == |images| <==> forall i :: 0 <= i < |images| ==> images[i].id != imgid
    ensures (forall i :: 0 <= i < |images| ==> images[i].id != imgid) ==> RemoveImage(images, imgid) == images
  {
    if |images| > 0 {
      RemoveImageKeepsLength(images[1..], imgid);
      RemoveImageExactly(images[1..], imgid);
      assert forall i :: 1 <= i < |images| ==> images[i] == images[1..][i - 1];
      if images[0].id == imgid {
        assert |RemoveImage(images, imgid)| < |images|;
      } else {
        assert images == [images[0]] + images[1..];
      }
    }
  }

  /** `images.find(val => val._id.toString() === imgid)`: the first entry
      with that id. */
  function FindImage(images: seq<Image>, imgid: string): (r: Option<Image>)
    ensures r.None? <==> forall i :: 0 <= i < |images| ==> images[i].id != imgid
    ensures r.Some? ==> exists i :: 0 <= i < |images| && images[i] == r.value && r.value.id == imgid
                                    && forall j :: 0 <= j < i ==> images[j].id != imgid
  {
    if |images| == 0 then None
    else if images[0].id == imgid then Some(images[0])
    else
      var r := FindImage(images[1..], imgid);
      assert forall i :: 1 <= i < |images| ==> images[i] == images[1..][i - 1];
      if r.Some? then
        var k :| 0 <= k < |images[1..]| && images[1..][k] == r.value && r.value.id == imgid
                  && forall j :: 0 <= j < k ==> images[1..][j].id != imgid;
        assert images[k + 1] == r.value;
        r
      else r
  }

  /** An entry appended after entries that all carry other ids is the one
      `find` returns for its id. */
  lemma {:induction false} FindImageAppended(images: seq<Image>, img: Image)
    requires forall i :: 0 <= i < |images| ==> images[i].id != img.id
    ensures FindImage(images + [img], img.id) == Some(img)
  {
    if |images| > 0 {
      FindImageAppended(images[1..], img);
      assert (images + [img])[1..] == images[1..] + [img];
    }
  }
}

=== FILE: task_router.dfy ===
/** The `/tasks` routes of src/routers/tasks.js as pure functions from the
    task collection, the authenticated caller and a request to a reply and
    the new collection. Every lookup is the query `{_id, owner: caller}`, so
    a task of another user behaves exactly like a missing one. */
module TaskRouter {
  import opened Wrappers
  import opened Text
  import opened Casting
  import opened TaskModel

  /** The Tasks collection, keyed by the text form of each task's ObjectId. */
  type Tasks = map<TaskId, Task>

  /** multer's `limits.fileSize` for task images, in bytes. */
  const MaxImageBytes := 6000000

  const InvalidOperation := "Invalid operation"
  const NotAnImage := "File must be a image"
  const FileTooLarge := "File too large"
  const TaskNotFound := "Task not found"
  const ImagesNotFound := "Images not found"
  const ImageNotFound := "Image not found"

  /** A multipart file as multer hands it over. */
  datatype Upload = Upload(originalName: string, bytes: seq<bv8>)

  /** The `sort` object of the list query: empty, or one field with 1 or -1. */
  datatype SortSpec = Unsorted | SortBy(field: string, direction: int)

  /** What the list route reads from its query string; None stands for an
      absent filter or for the NaN parseInt returns. */
  datatype ListOptions = ListOptions(completed: Option<bool>, sort: SortSpec, limit: Option<int>, skip: Option<int>)

  datatype Request =
    | CreateTask(body: Body)                       // POST /tasks
    | ListTasks(query: map<string, string>)        // GET /tasks
    | ReadTask(id: string)                         // GET /tasks/:id
    | UpdateTask(id: string, body: Body)           // PATCH /tasks/:id
    | DeleteTask(id: string)                       // DELETE /tasks/:id
    | AddImage(id: string, file: Option<Upload>)   // POST /tasks/:id/image
    | DeleteImage(id: string, imgid: string)       // DELETE /tasks/:id/image/:imgid
    | ReadImage(id: string, imgid: string)         // GET /tasks/:id/image/:imgid

  /** The body of a reply. `LibraryError` is an error object or message that
      Mongoose, MongoDB or the JavaScript engine composes, whose text the
      source does not fix. */
  datatype Payload =
    | NoContent
    | TaskJson(task: TaskView)
    | TaskListJson(tasks: seq<TaskView>)
    | Plain(text: string)
    | ErrorJson(error: string)
    | ValidationError(paths: set<string>)
    | LibraryError
    | Png(bytes: seq<bv8>)
    | Unauthorized

  /** A reply, or none at all when the handler's promise rejects unhandled. */
  datatype Reply = Reply(status: int, payload: Payload) | NoReply

  /** What the handlers take from outside: the ObjectIds MongoDB and Mongoose
      generate for a new task or image, the sharp re-encoding to PNG (None when
      it rejects), and the order in which the database returns the documents
      matching a query under a sort specification. */
  datatype Env = Env(
    newTaskId: TaskId,
    newImageId: string,
    toPng: seq<bv8> -> Option<seq<bv8>>,
    arrange: (Tasks, SortSpec) -> seq<TaskId>)

  predicate Succeeded(r: Reply) {
    r.Reply? && 200 <= r.status < 300
  }

  /** The outcome of `Task.findOne({_id: param, owner: caller})`. */
  datatype Lookup = BadId | NotFound | Found(id: TaskId, task: Task)

  /** `Task.findOne({_id: param, owner: caller})`: a parameter that is not an
      ObjectId is a CastError; otherwise the task is found only when it exists
      and its owner is the caller. */
  function FindOwned(tasks: Tasks, caller: UserId, param: string): (r: Lookup)
    ensures r.BadId? <==> !IsObjectIdText(param)
    ensures r.Found? ==> r.id in tasks && r.task == tasks[r.id] && r.task.owner == caller
    ensures r.Found? ==> CastObjectId(Str(param)) == Some(r.id)
    ensures IsCanonicalId(param) ==> (r.Found? <==> param in tasks && tasks[param].owner == caller)
    ensures IsCanonicalId(param) && r.Found? ==> r.id == param
    ensures IsObjectIdText(param) ==>
      var k := CastObjectId(Str(param)).value;
      (r.Found? <==> k in tasks && tasks[k].owner == caller) && (r.Found? ==> r.id == k)
  {
    match CastObjectId(Str(param))
    case None => BadId
    case Some(id) => if id in tasks && tasks[id].owner == caller then Found(id, tasks[id]) else NotFound
  }

  /* ---------------- POST /tasks ---------------- */

  /** A body `_id` Mongoose can cast to an ObjectId, or none at all. */
  predicate IdCasts(body: Body) {
    "_id" !in body || CastObjectId(body["_id"]).Some?
  }

  /** `new Task({...req.body, owner: req.user._id})` and its validation: the
      caller's id is written after the body is spread, so a body `owner`
      never survives, and it is the only owner a new task can get. A body
      `_id` is kept, and one that does not cast is a failure on `_id`. */
  function NewTask(body: Body, caller: UserId): (r: Result<Task, set<string>>)
    ensures r.Success? ==> WellFormed(r.value) && r.value.images == []
    ensures r.Success? ==> CastObjectId(Str(caller)) == Some(r.value.owner)
    ensures r.Success? && IsCanonicalId(caller) ==> r.value.owner == caller
    ensures r.Success? ==>
              (r.value.completed <==> "completed" in body && CastBoolean(body["completed"]) == Some(true))
    ensures r.Success? ==> ReadTrimmed(body, "description") == Cast(r.value.description)
    ensures r.Failure? ==> r.error != {} && r.error <= TaskPaths + {"_id"}
    ensures r.Failure? ==> ("_id" in r.error <==> !IdCasts(body))
    ensures IsObjectIdText(caller) && r.Failure? ==> "owner" !in r.error
    ensures !IsObjectIdText(caller) ==> r.Failure? && "owner" in r.error
    ensures r.Success? <==>
              && HasText(body, "description")
              && ("completed" in body ==> CastBoolean(body["completed"]).Some?)
              && IsObjectIdText(caller)
              && IdCasts(body)
  {
    var doc := body["owner" := Str(caller)];
    assert doc["owner"] == Str(caller);
    assert "completed" in doc <==> "completed" in body;
    assert "completed" in body ==> doc["completed"] == body["completed"];
    assert "description" in doc <==> "description" in body;
    assert "description" in body ==> doc["description"] == body["description"];
    var built := BuildTask(doc);
    if IdCasts(body) then built
    else Failure((if built.Failure? then built.error else {}) + {"_id"})
  }

  /** The key a new task is saved under: the body's own `_id`, cast to an
      ObjectId, when it gives one, and otherwise the id generated for it. */
  function NewTaskId(body: Body, generated: TaskId): (id: TaskId)
    ensures "_id" !in body ==> id == generated
    ensures "_id" in body && CastObjectId(body["_id"]).Some? ==> id == CastObjectId(body["_id"]).value
    ensures "_id" in body && CastObjectId(body["_id"]).Some? ==> IsCanonicalId(id)
  {
    if "_id" in body && CastObjectId(body["_id"]).Some? then CastObjectId(body["_id"]).value else generated
  }

  /** POST /tasks once the document is built: 201 with the new task stored
      under its id, or 400 with the validation error (or the duplicate key
      error of an id already taken) and nothing stored. */
  function Create(tasks: Tasks, built: Result<Task, set<string>>, newId: TaskId): (r: (Reply, Tasks))
    ensures r.0.Reply? && (r.0.status == 201 || r.0.status == 400)
    ensures r.0.status == 201 <==> built.Success? && newId !in tasks
    ensures r.0.status == 400 ==> r.1 == tasks
    ensures built.Failure? ==> r.0.payload == ValidationError(built.error)
    ensures r.0.status == 201 ==> r.1.Keys == tasks.Keys + {newId} && newId !in tasks
    ensures r.0.status == 201 ==> forall id :: id in tasks ==> r.1[id] == tasks[id]
    ensures r.0.status == 201 ==> r.1[newId] == built.value
    ensures r.0.status == 201 ==> r.0.payload == TaskJson(ToJson(newId, r.1[newId]))
  {
    match built
    case Failure(errs) => (Reply(400, ValidationError(errs)), tasks)
    case Success(t) =>
      if newId in tasks then (Reply(400, LibraryError), tasks)
      else (Reply(201, TaskJson(ToJson(newId, t))), tasks[newId := t])
  }

  /* ---------------- GET /tasks ---------------- */

  /** `sortby` split on ':': empty text does not sort; otherwise sort by the
      first segment, descending exactly when the second segment is "desc". */
  function ParseSort(s: string): (sort: SortSpec)
    ensures sort.SortBy? <==> s != ""
    ensures sort.SortBy? ==>
      var k := IndexOf(s, ':');
      && sort.field == s[..k]
      && (sort.direction == 1 || sort.direction == -1)
      && (sort.direction == -1 <==> k < |s| && s[k + 1..][..IndexOf(s[k + 1..], ':')] == "desc")
  {
    if s == "" then Unsorted
    else
      var parts := Split(s, ':');
      SplitAtFirst(s, ':');
      if |parts| >= 2 then
        SplitAtFirst(s[IndexOf(s, ':') + 1..], ':');
        SortBy(parts[0], if parts[1] == "desc" then -1 else 1)
      else SortBy(parts[0], 1)
  }

  /** The list route's reading of its query string: `completed` filters only
      when non-empty and means true only for the exact text "true"; `sortby`
      is read by ParseSort; `limit` and `skip` go through parseInt. */
  function ParseQuery(query: map<string, string>): (o: ListOptions)
    ensures o.completed.Some? <==> "completed" in query && query["completed"] != ""
    ensures o.completed.Some? ==> (o.completed.value <==> query["completed"] == "true")
    ensures o.sort.SortBy? <==> "sortby" in query && query["sortby"] != ""
    ensures o.sort.SortBy? ==> o.sort == ParseSort(query["sortby"])
    ensures o.limit == (if "limit" in query then ParseInt(query["limit"]) else None)
    ensures o.skip == (if "skip" in query then ParseInt(query["skip"]) else None)
  {
    ListOptions(
      if "completed" in query && query["completed"] != "" then Some(query["completed"] == "true") else None,
      if "sortby" in query then ParseSort(query["sortby"]) else Unsorted,
      if "limit" in query then ParseInt(query["limit"]) else None,
      if "skip" in query then ParseInt(query["skip"]) else None)
  }

  /** The documents the list query matches: the caller's tasks, restricted
      to the requested `completed` value when there is one. */
  function Candidates(tasks: Tasks, caller: UserId, completed: Option<bool>): (m: Tasks)
    ensures forall id :: id in m <==>
      id in tasks && tasks[id].owner == caller && (completed.None? || tasks[id].completed == completed.value)
    ensures forall id :: id in m ==> m[id] == tasks[id]
  {
    map id | id in tasks && tasks[id].owner == caller && (completed.None? || tasks[id].completed == completed.value)
      :: tasks[id]
  }

  /** The ids of `ids` that are keys of `m`, in their order. */
  function KeepKeys(ids: seq<TaskId>, m: Tasks): (r: seq<TaskId>)
    ensures |r| <= |ids|
    ensures forall x :: x in r <==> x in m && x in ids
    ensures (forall i :: 0 <= i < |ids| ==> ids[i] in m) ==> r == ids
  {
    if |ids| == 0 then []
    else (if ids[0] in m then [ids[0]] else []) + KeepKeys(ids[1..], m)
  }

  /** KeepKeys keeps the matched ids in the order the database gave them,
      each as often as it occurs there, and drops every other. */
  lemma {:induction false} KeepKeysInOrder(ids: seq<TaskId>, m: Tasks)
    ensures IsSubsequence(KeepKeys(ids, m), ids)
    ensures forall x :: multiset(KeepKeys(ids, m))[x] == if x in m then multiset(ids)[x] else 0
  {
    if |ids| > 0 {
      var rest := KeepKeys(ids[1..], m);
      KeepKeysInOrder(ids[1..], m);
      assert ids == [ids[0]] + ids[1..];
      if ids[0] in m {
        assert KeepKeys(ids, m) == [ids[0]] + rest;
        assert ([ids[0]] + rest)[1..] == rest;
      } else {
        assert KeepKeys(ids, m) == rest;
      }
    }
  }

  /** How many ids `skip` drops from a list of `n`: none when absent or not
      positive, all of them when it exceeds the list. */
  function SkipCount(n: nat, skip: Option<int>): (from: nat)
    ensures from <= n
    ensures skip.Some? && 0 <= skip.value ==> from == Min(skip.value, n)
    ensures skip.None? ==> from == 0
  {
    if skip.Some? && 0 < skip.value <= n then skip.value
    else if skip.Some? && skip.value > n then n else 0
  }

  /** `skip` then `limit`: drop the first `skip` ids (none when absent), then
      keep at most |limit| of the rest (all of them when the limit is absent
      or 0, as MongoDB reads it). A negative skip is refused before this. */
  function Page(ids: seq<TaskId>, skip: Option<int>, limit: Option<int>): (r: seq<TaskId>)
    ensures var from := SkipCount(|ids|, skip);
            && from + |r| <= |ids|
            && r == ids[from..from + |r|]
            && (limit.None? || limit == Some(0) ==> |r| == |ids| - from)
            && (limit.Some? && limit.value != 0 ==> |r| == Min(Abs(limit.value), |ids| - from))
    ensures forall x :: x in r ==> x in ids
  {
    var rest := ids[SkipCount(|ids|, skip)..];
    if limit.None? || limit.value == 0 then rest
    else rest[..Min(Abs(limit.value), |rest|)]
  }

  function Abs(n: int): nat {
    if n < 0 then -n else n
  }

  function Min(a: int, b: int): int {
    if a < b then a else b
  }

  /** The JSON form of each id of `ids`, looked up in `m`. */
  function Views(ids: seq<TaskId>, m: Tasks): (vs: seq<TaskView>)
    requires forall x :: x in ids ==> x in m
    ensures |vs| == |ids|
    ensures forall i :: 0 <= i < |ids| ==> vs[i] == ToJson(ids[i], m[ids[i]])
  {
    seq(|ids|, i requires 0 <= i < |ids| => ToJson(ids[i], m[ids[i]]))
  }

  /** The documents `populate` returns for the parsed options: the matched
      tasks in the order the database gives them, after `skip` and `limit`,
      each in its JSON form. Item i is the match at position skip + i of that
      order. */
  function Listing(tasks: Tasks, caller: UserId, opts: ListOptions,
                   arrange: (Tasks, SortSpec) -> seq<TaskId>): (listed: seq<TaskView>)
    ensures forall i :: 0 <= i < |listed| ==>
      var v := listed[i];
      && v.id in tasks && tasks[v.id].owner == caller && v == ToJson(v.id, tasks[v.id])
      && (opts.completed.Some? ==> tasks[v.id].completed == opts.completed.value)
    ensures
      var matched := Candidates(tasks, caller, opts.completed);
      var ids := KeepKeys(arrange(matched, opts.sort), matched);
      var from := SkipCount(|ids|, opts.skip);
      && from + |listed| <= |ids|
      && (forall i :: 0 <= i < |listed| ==> listed[i].id == ids[from + i])
      && (opts.limit.None? || opts.limit == Some(0) ==> |listed| == |ids| - from)
      && (opts.limit.Some? && opts.limit.value != 0 ==> |listed| == Min(Abs(opts.limit.value), |ids| - from))
  {
    var matched := Candidates(tasks, caller, opts.completed);
    var ids := KeepKeys(arrange(matched, opts.sort), matched);
    Views(Page(ids, opts.skip, opts.limit), matched)
  }

  /** GET /tasks: populate the caller's `tasks` virtual with the parsed
      match, sort, skip and limit; a negative skip makes MongoDB refuse the
      query, answered with 500. The collection is unchanged. */
  function List(tasks: Tasks, caller: UserId, query: map<string, string>,
                arrange: (Tasks, SortSpec) -> seq<TaskId>): (r: (Reply, Tasks))
    ensures r.1 == tasks
    ensures r.0.Reply? && (r.0.status == 200 || r.0.status == 500)
    ensures r.0.status == 500 <==> "skip" in query && ParseInt(query["skip"]).Some? && ParseInt(query["skip"]).value < 0
    ensures r.0.status == 200 ==> r.0.payload == TaskListJson(Listing(tasks, caller, ParseQuery(query), arrange))
  {
    var opts := ParseQuery(query);
    if opts.skip.Some? && opts.skip.value < 0 then (Reply(500, LibraryError), tasks)
    else (Reply(200, TaskListJson(Listing(tasks, caller, opts, arrange))), tasks)
  }

  /* ---------------- GET, PATCH, DELETE /tasks/:id ---------------- */

  /** GET /tasks/:id: the task when it exists and belongs to the caller, 404
      otherwise; a malformed id is a CastError answered with 500. */
  function Read(tasks: Tasks, caller: UserId, id: string): (r: Reply)
    ensures r.Reply?
    ensures !IsObjectIdText(id) ==> r == Reply(500, LibraryError)
    ensures IsCanonicalId(id) && (id !in tasks || tasks[id].owner != caller) ==> r == Reply(404, NoContent)
    ensures IsCanonicalId(id) && id in tasks && tasks[id].owner == caller ==>
              r == Reply(200, TaskJson(ToJson(id, tasks[id])))
    ensures IsObjectIdText(id) ==>
      var k := CastObjectId(Str(id)).value;
      && (k in tasks && tasks[k].owner == caller ==> r == Reply(200, TaskJson(ToJson(k, tasks[k]))))
      && (!(k in tasks && tasks[k].owner == caller) ==> r == Reply(404, NoContent))
  {
    match FindOwned(tasks, caller, id)
    case BadId => Reply(500, LibraryError)
    case NotFound => Reply(404, NoContent)
    case Found(k, t) => Reply(200, TaskJson(ToJson(k, t)))
  }

  /** PATCH /tasks/:id: a body naming any key outside {description, completed}
      is refused with 400 "Invalid operation" before any lookup; then a task
      that is not the caller's is 404; then the update applies in full or the
      400 validation error leaves the task as it was. */
  function Update(tasks: Tasks, caller: UserId, id: string, body: Body): (r: (Reply, Tasks))
    ensures r.0.Reply?
    ensures !(body.Keys <= UpdatablePaths) ==> r == (Reply(400, ErrorJson(InvalidOperation)), tasks)
    ensures r.0.status != 200 ==> r.1 == tasks
    ensures body.Keys <= UpdatablePaths && !IsObjectIdText(id) ==> r.0 == Reply(400, LibraryError)
    ensures body.Keys <= UpdatablePaths && IsCanonicalId(id) && (id !in tasks || tasks[id].owner != caller) ==>
              r.0 == Reply(404, NoContent)
    ensures body.Keys <= UpdatablePaths && IsObjectIdText(id) ==>
      var k := CastObjectId(Str(id)).value;
      !(k in tasks && tasks[k].owner == caller) ==> r == (Reply(404, NoContent), tasks)
    ensures r.0.status == 200 ==>
      FindOwned(tasks, caller, id).Found? &&
      var k := FindOwned(tasks, caller, id).id;
      && ApplyUpdates(tasks[k], body).Success?
      && r.1 == tasks[k := ApplyUpdates(tasks[k], body).value]
      && r.0.payload == TaskJson(ToJson(k, r.1[k]))
    ensures body.Keys <= UpdatablePaths && FindOwned(tasks, caller, id).Found? ==>
      var k := FindOwned(tasks, caller, id).id;
      (r.0.status == 200 <==> ApplyUpdates(tasks[k], body).Success?)
    ensures body.Keys <= UpdatablePaths && FindOwned(tasks, caller, id).Found? ==>
      var k := FindOwned(tasks, caller, id).id;
      ApplyUpdates(tasks[k], body).Failure? ==>
        r == (Reply(400, ValidationError(ApplyUpdates(tasks[k], body).error)), tasks)
  {
    if !(body.Keys <= UpdatablePaths) then (Reply(400, ErrorJson(InvalidOperation)), tasks)
    else match FindOwned(tasks, caller, id)
      case BadId => (Reply(400, LibraryError), tasks)
      case NotFound => (Reply(404, NoContent), tasks)
      case Found(k, t) =>
        match ApplyUpdates(t, body)
        case Failure(errs) => (Reply(400, ValidationError(errs)), tasks)
        case Success(t') => (Reply(200, TaskJson(ToJson(k, t'))), tasks[k := t'])
  }

  /** DELETE /tasks/:id: `findOneAndDelete({_id, owner})`; a task that is not
      the caller's is 404 and stays; a malformed id is 500. */
  function Delete(tasks: Tasks, caller: UserId, id: string): (r: (Reply, Tasks))
    ensures r.0.Reply?
    ensures r.0.status != 200 ==> r.1 == tasks
    ensures !IsObjectIdText(id) ==> r.0 == Reply(500, LibraryError)
    ensures IsCanonicalId(id) && (id !in tasks || tasks[id].owner != caller) ==> r.0 == Reply(404, NoContent)
    ensures IsCanonicalId(id) && id in tasks && tasks[id].owner == caller ==>
              r == (Reply(200, TaskJson(ToJson(id, tasks[id]))), tasks - {id})
    ensures IsObjectIdText(id) ==>
      var k := CastObjectId(Str(id)).value;
      && (k in tasks && tasks[k].owner == caller ==> r == (Reply(200, TaskJson(ToJson(k, tasks[k]))), tasks - {k}))
      && (!(k in tasks && tasks[k].owner == caller) ==> r == (Reply(404, NoContent), tasks))
  {
    match FindOwned(tasks, caller, id)
    case BadId => (Reply(500, LibraryError), tasks)
    case NotFound => (Reply(404, NoContent), tasks)
    case Found(k, t) => (Reply(200, TaskJson(ToJson(k, t))), tasks - {k})
  }

  /* ---------------- task images ---------------- */

  /** multer's `fileFilter`: the lower-cased original name must end in
      ".jpg", ".jpeg" or ".png". */
  predicate HasImageExtension(name: string) {
    var lower := ToLower(name);
    EndsWith(lower, ".jpg") || EndsWith(lower, ".jpeg") || EndsWith(lower, ".png")
  }

  /** POST /tasks/:id/image: the filter and the size limit answer 400 through
      the route's error handler; past them, a missing file, a failed re-encode
      or a task that is not the caller's makes the handler throw with nobody
      catching it, so no reply is sent and nothing is added. Otherwise the PNG
      is appended after the task's existing images. */
  function AttachImage(tasks: Tasks, caller: UserId, id: string, file: Option<Upload>, env: Env): (r: (Reply, Tasks))
    ensures !Succeeded(r.0) ==> r.1 == tasks
    ensures r.0.Reply? ==> r.0.status == 200 || r.0.status == 400
    ensures file.Some? && !HasImageExtension(file.value.originalName) ==> r.0 == Reply(400, ErrorJson(NotAnImage))
    ensures file.Some? && HasImageExtension(file.value.originalName) && |file.value.bytes| > MaxImageBytes ==>
              r.0 == Reply(400, ErrorJson(FileTooLarge))
    ensures file.None? ==> r.0 == NoReply
    ensures !FindOwned(tasks, caller, id).Found? ==> !Succeeded(r.0)
    ensures Succeeded(r.0) ==>
      FindOwned(tasks, caller, id).Found? &&
      var k := FindOwned(tasks, caller, id).id;
      && file.Some? && env.toPng(file.value.bytes).Some?
      && r.0 == Reply(200, NoContent)
      && r.1 == tasks[k := tasks[k].(images := tasks[k].images + [Image(env.newImageId, env.toPng(file.value.bytes).value)])]
    ensures && file.Some? && HasImageExtension(file.value.originalName) && |file.value.bytes| <= MaxImageBytes
            && env.toPng(file.value.bytes).Some?
            && FindOwned(tasks, caller, id).Found? && WellFormed(FindOwned(tasks, caller, id).task)
            ==> Succeeded(r.0)
  {
    match file
    case None => (NoReply, tasks)
    case Some(upload) =>
      if !HasImageExtension(upload.originalName) then (Reply(400, ErrorJson(NotAnImage)), tasks)
      else if |upload.bytes| > MaxImageBytes then (Reply(400, ErrorJson(FileTooLarge)), tasks)
      else match env.toPng(upload.bytes)
        case None => (NoReply, tasks)
        case Some(png) =>
          match FindOwned(tasks, caller, id)
          case BadId => (NoReply, tasks)
          case NotFound => (NoReply, tasks)
          case Found(k, t) =>
            var t' := t.(images := t.images + [Image(env.newImageId, png)]);
            if SaveErrors(t') != {} then (NoReply, tasks)
            else (Reply(200, NoContent), tasks[k := t'])
  }

  /** The image-list part of DELETE /tasks/:id/image/:imgid: an empty list
      is "Images not found", a list with no entry of that id is "Image not
      found", and otherwise every entry with the id goes and the rest keep
      their order. */
  function RemoveFromImages(images: seq<Image>, imgid: string): (r: Result<seq<Image>, string>)
    ensures |images| == 0 <==> r == Failure(ImagesNotFound)
    ensures r == Failure(ImageNotFound) <==> |images| > 0 && FindImage(images, imgid).None?
    ensures r.Success? <==> FindImage(images, imgid).Some?
    ensures r.Success? ==> r.value == RemoveImage(images, imgid) && |r.value| < |images|
  {
    if |images| == 0 then Failure(ImagesNotFound)
    else
      var kept := RemoveImage(images, imgid);
      RemoveImageKeepsLength(images, imgid);
      RemoveImageExactly(images, imgid);
      if |kept| == |images| then Failure(ImageNotFound) else Success(kept)
  }

  /** DELETE /tasks/:id/image/:imgid: "Task not found" for a task that is
      not the caller's, then the 404s of the image list; only a removal that
      happened is saved. A malformed id is 500. */
  function RemoveTaskImage(tasks: Tasks, caller: UserId, id: string, imgid: string): (r: (Reply, Tasks))
    ensures r.0.Reply?
    ensures r.0.status != 200 ==> r.1 == tasks
    ensures !IsObjectIdText(id) ==> r.0 == Reply(500, LibraryError)
    ensures FindOwned(tasks, caller, id).NotFound? ==> r.0 == Reply(404, Plain(TaskNotFound))
    ensures FindOwned(tasks, caller, id).Found? ==>
      match RemoveFromImages(FindOwned(tasks, caller, id).task.images, imgid)
      case Failure(msg) => r.0 == Reply(404, Plain(msg))
      case Success(kept) =>
        var k := FindOwned(tasks, caller, id).id;
        WellFormed(tasks[k]) ==> r == (Reply(200, NoContent), tasks[k := tasks[k].(images := kept)])
  {
    match FindOwned(tasks, caller, id)
    case BadId => (Reply(500, LibraryError), tasks)
    case NotFound => (Reply(404, Plain(TaskNotFound)), tasks)
    case Found(k, t) =>
      match RemoveFromImages(t.images, imgid)
      case Failure(msg) => (Reply(404, Plain(msg)), tasks)
      case Success(kept) =>
        var t' := t.(images := kept);
        if SaveErrors(t') != {} then (Reply(500, LibraryError), tasks)
        else (Reply(200, NoContent), tasks[k := t'])
  }

  /** GET /tasks/:id/image/:imgid: the PNG bytes of the first entry with the
      id, served as image/png; every failure, including a malformed id and a
      task that is not the caller's, is caught and answered with 404. */
  function ReadTaskImage(tasks: Tasks, caller: UserId, id: string, imgid: string): (r: Reply)
    ensures r.Reply? && (r.status == 200 || r.status == 404)
    ensures r.status == 200 <==>
      FindOwned(tasks, caller, id).Found? && FindImage(FindOwned(tasks, caller, id).task.images, imgid).Some?
    ensures r.status == 200 ==>
      r.payload == Png(FindImage(FindOwned(tasks, caller, id).task.images, imgid).value.blob)
    ensures FindOwned(tasks, caller, id).NotFound? ==> r == Reply(404, ErrorJson(TaskNotFound))
  {
    match FindOwned(tasks, caller, id)
    case BadId => Reply(404, LibraryError)
    case NotFound => Reply(404, ErrorJson(TaskNotFound))
    case Found(_, t) =>
      match FindImage(t.images, imgid)
      case None => Reply(404, LibraryError)
      case Some(img) => Reply(200, Png(img.blob))
  }

  /* ---------------- the router ---------------- */

  /** Every route runs the `auth` middleware first: with no authenticated
      caller the request ends with 401 and nothing changes. */
  function Handle(tasks: Tasks, auth: Option<UserId>, req: Request, env: Env): (r: (Reply, Tasks))
    ensures auth.None? ==> r == (Reply(401, Unauthorized), tasks)
  {
    match auth
    case None => (Reply(401, Unauthorized), tasks)
    case Some(caller) =>
      match req
      case CreateTask(body) => Create(tasks, NewTask(body, caller), NewTaskId(body, env.newTaskId))
      case ListTasks(query) => List(tasks, caller, query, env.arrange)
      case ReadTask(id) => (Read(tasks, caller, id), tasks)
      case UpdateTask(id, body) => Update(tasks, caller, id, body)
      case DeleteTask(id) => Delete(tasks, caller, id)
      case AddImage(id, file) => AttachImage(tasks, caller, id, file, env)
      case DeleteImage(id, imgid) => RemoveTaskImage(tasks, caller, id, imgid)
      case ReadImage(id, imgid) => (ReadTaskImage(tasks, caller, id, imgid), tasks)
  }
}

=== FILE: text.dfy ===
/** The JavaScript string built-ins the source relies on: trim, toLowerCase,
    includes, split, parseInt and the rendering of an integer as a string. */
module Text {
  import opened Wrappers

  /** The code points ECMAScript counts as WhiteSpace or LineTerminator:
      what String.prototype.trim strips and what parseInt skips. */
  predicate IsSpace(c: char) {
    var n := c as int;
    n == 0x09 || n == 0x0A || n == 0x0B || n == 0x0C || n == 0x0D || n == 0x20
    || n == 0xA0 || n == 0x1680 || (0x2000 <= n <= 0x200A) || n == 0x2028
    || n == 0x2029 || n == 0x202F || n == 0x205F || n == 0x3000 || n == 0xFEFF
  }

  /** Every character of `s` in the index range [lo, hi) is white space. */
  predicate AllSpaceIn(s: string, lo: int, hi: int) {
    forall i :: lo <= i < hi && 0 <= i < |s| ==> IsSpace(s[i])
  }

  predicate AllSpace(s: string) {
    AllSpaceIn(s, 0, |s|)
  }

  /** A string that trim would leave as it is. */
  predicate Trimmed(s: string) {
    s == [] || (!IsSpace(s[0]) && !IsSpace(s[|s| - 1]))
  }

  /** `r` sits at offset `k` of `s` and everything around it is white space. */
  ghost predicate SurroundedBySpace(s: string, k: nat, r: string) {
    && k + |r| <= |s|
    && s[k..k + |r|] == r
    && AllSpaceIn(s, 0, k)
    && AllSpaceIn(s, k + |r|, |s|)
  }

  function TrimStart(s: string): (r: string)
    ensures |r| <= |s| && r == s[|s| - |r|..]
    ensures AllSpaceIn(s, 0, |s| - |r|)
    ensures r == [] || !IsSpace(r[0])
  {
    if |s| > 0 && IsSpace(s[0]) then TrimStart(s[1..]) else s
  }

  function TrimEnd(s: string): (r: string)
    ensures |r| <= |s| && r == s[..|r|]
    ensures AllSpaceIn(s, |r|, |s|)
    ensures r == [] || !IsSpace(r[|r| - 1])
  {
    if |s| > 0 && IsSpace(s[|s| - 1]) then TrimEnd(s[..|s| - 1]) else s
  }

  /** String.prototype.trim: strips white space at both ends and nothing else.
      The result is empty exactly when the input is all white space. */
  function Trim(s: string): (r: string)
    ensures Trimmed(r)
    ensures SurroundedBySpace(s, |s| - |TrimStart(s)|, r)
    ensures r == [] <==> AllSpace(s)
  {
    var a := TrimStart(s);
    var r := TrimEnd(a);
    TrimParts(s, a, r);
    r
  }

  lemma TrimParts(s: string, a: string, r: string)
    requires a == TrimStart(s) && r == TrimEnd(a)
    ensures Trimmed(r)
    ensures SurroundedBySpace(s, |s| - |a|, r)
    ensures r == [] <==> AllSpace(s)
  {
    if r != [] {
      assert r[0] == a[0];
    }
    TrimSurround(s, a, r);
    TrimEmpty(s, a, r);
  }

  lemma TrimSurround(s: string, a: string, r: string)
    requires |a| <= |s| && a == s[|s| - |a|..] && AllSpaceIn(s, 0, |s| - |a|)
    requires |r| <= |a| && r == a[..|r|] && AllSpaceIn(a, |r|, |a|)
    ensures SurroundedBySpace(s, |s| - |a|, r)
  {
    var k := |s| - |a|;
    assert s[k..][..|r|] == s[k..k + |r|];
    SpaceShift(s, a, k, |r|, |a|);
  }

  /** White space in a suffix of `s` is white space in `s`, shifted by the
      suffix's offset. */
  lemma SpaceShift(s: string, a: string, k: nat, lo: nat, hi: int)
    requires k <= |s| && a == s[k..]
    requires AllSpaceIn(a, lo, hi)
    ensures AllSpaceIn(s, k + lo, k + hi)
  {
    forall i | k + lo <= i < k + hi && 0 <= i < |s| ensures IsSpace(s[i]) {
      assert s[i] == a[i - k];
    }
  }

  lemma TrimEmpty(s: string, a: string, r: string)
    requires a == TrimStart(s) && r == TrimEnd(a)
    ensures r == [] <==> AllSpace(s)
  {
    if r != [] {
      assert s[|s| - |a|] == a[0];
    }
  }

  /** Trimming is idempotent: trimmed text is left unchanged. */
  lemma TrimTrimmed(s: string)
    requires Trimmed(s)
    ensures Trim(s) == s
  {
    assert TrimStart(s) == s;
    assert TrimEnd(s) == s;
  }

  function LowerChar(c: char): char {
    if 'A' <= c <= 'Z' then (c as int + 32) as char else c
  }

  /** String.prototype.toLowerCase restricted to the ASCII letters: each of
      'A' to 'Z' becomes the letter 32 code points above it, every other
      character stays, so no upper-case ASCII letter is left. */
  function ToLower(s: string): (r: string)
    ensures |r| == |s|
    ensures forall i :: 0 <= i < |s| && 'A' <= s[i] <= 'Z' ==> r[i] as int == s[i] as int + 32
    ensures forall i :: 0 <= i < |s| && !('A' <= s[i] <= 'Z') ==> r[i] == s[i]
    ensures forall i :: 0 <= i < |r| ==> !('A' <= r[i] <= 'Z')
  {
    seq(|s|, i requires 0 <= i < |s| => LowerChar(s[i]))
  }

  /** Each character of ToLower(s) is LowerChar of the one it replaces. */
  lemma ToLowerAt(s: string, i: int)
    requires 0 <= i < |s|
    ensures ToLower(s)[i] == LowerChar(s[i])
  {
  }

  /** The JavaScript `length` of a string: the number of UTF-16 code units,
      two for every character above U+FFFF and one for the others. */
  function Utf16Length(s: string): (n: nat)
    ensures |s| <= n <= 2 * |s|
    ensures (forall i :: 0 <= i < |s| ==> s[i] as int < 0x10000) ==> n == |s|
  {
    if |s| == 0 then 0
    else Utf16Length(s[..|s| - 1]) + (if s[|s| - 1] as int < 0x10000 then 1 else 2)
  }

  /** A single character is one code unit up to U+FFFF and a surrogate pair,
      two units, above it. */
  lemma Utf16LengthChar(c: char)
    ensures Utf16Length([c]) == if c as int < 0x10000 then 1 else 2
  {
    assert [c][..0] == [];
  }

  /** The JavaScript length of a concatenation is the sum of the lengths, so
      together with Utf16LengthChar it counts every character. */
  lemma {:induction false} Utf16LengthAppend(a: string, b: string)
    ensures Utf16Length(a + b) == Utf16Length(a) + Utf16Length(b)
    decreases |b|
  {
    if |b| == 0 {
      assert a + b == a;
    } else {
      Utf16LengthAppend(a, b[..|b| - 1]);
      assert (a + b)[..|a + b| - 1] == a + b[..|b| - 1];
    }
  }

  /** `pat` (lower case) occurs at index `i` of `s` when ASCII letter case is ignored. */
  predicate MatchesIgnoringCase(s: string, pat: string, i: nat) {
    i + |pat| <= |s| && forall j :: 0 <= j < |pat| ==> LowerChar(s[i + j]) == pat[j]
  }

  /** `pat` occurs in `s` starting at index `i`. */
  predicate OccursAt(s: string, pat: string, i: nat) {
    i + |pat| <= |s| && s[i..i + |pat|] == pat
  }

  /** String.prototype.includes, scanning from the left. */
  predicate Contains(s: string, pat: string)
    decreases |s|
  {
    if |s| < |pat| then false
    else s[..|pat|] == pat || Contains(s[1..], pat)
  }

  lemma {:induction false} ContainsIffOccurs(s: string, pat: string)
    ensures Contains(s, pat) <==> exists i: nat :: OccursAt(s, pat, i)
    decreases |s|
  {
    if |s| < |pat| {
      forall i: nat ensures !OccursAt(s, pat, i) {
      }
    } else if s[..|pat|] == pat {
      assert OccursAt(s, pat, 0);
    } else {
      ContainsIffOccurs(s[1..], pat);
      assert !OccursAt(s, pat, 0);
      forall i: nat | 1 <= i && OccursAt(s, pat, i)
        ensures OccursAt(s[1..], pat, i - 1)
      {
        assert s[1..][i - 1..i - 1 + |pat|] == s[i..i + |pat|];
      }
      forall i: nat | OccursAt(s[1..], pat, i)
        ensures OccursAt(s, pat, i + 1)
      {
        assert s[i + 1..i + 1 + |pat|] == s[1..][i..i + |pat|];
      }
    }
  }

  /** String.prototype.endsWith. */
  predicate EndsWith(s: string, suffix: string) {
    |suffix| <= |s| && s[|s| - |suffix|..] == suffix
  }

  /** The index of the first `c` in `s`, or |s| when there is none. */
  function IndexOf(s: string, c: char): (k: nat)
    ensures k <= |s|
    ensures forall i :: 0 <= i < k ==> s[i] != c
    ensures k < |s| ==> s[k] == c
  {
    if |s| == 0 || s[0] == c then 0 else 1 + IndexOf(s[1..], c)
  }

  /** String.prototype.split with a one-character separator. */
  function Split(s: string, sep: char): (parts: seq<string>)
    ensures |parts| >= 1
    ensures forall i :: 0 <= i < |parts| ==> sep !in parts[i]
  {
    if |s| == 0 then [""]
    else if s[0] == sep then [""] + Split(s[1..], sep)
    else
      var rest := Split(s[1..], sep);
      [[s[0]] + rest[0]] + rest[1..]
  }

  /** Array.prototype.join, the inverse of Split. */
  function Join(parts: seq<string>, sep: char): string {
    if |parts| == 0 then ""
    else if |parts| == 1 then parts[0]
    else parts[0] + [sep] + Join(parts[1..], sep)
  }

  lemma {:induction false} JoinSplit(s: string, sep: char)
    ensures Join(Split(s, sep), sep) == s
  {
    if |s| == 0 {
    } else if s[0] == sep {
      JoinSplit(s[1..], sep);
      assert s == [sep] + s[1..];
    } else {
      var rest := Split(s[1..], sep);
      JoinSplit(s[1..], sep);
      if |rest| == 1 {
        assert s == [s[0]] + s[1..];
      } else {
        assert Join(rest, sep) == rest[0] + [sep] + Join(rest[1..], sep);
        assert rest[1..] == ([[s[0]] + rest[0]] + rest[1..])[1..];
        assert s == [s[0]] + s[1..];
      }
    }
  }

  lemma {:induction false} SplitJoin(parts: seq<string>, sep: char)
    requires |parts| >= 1
    requires forall i :: 0 <= i < |parts| ==> sep !in parts[i]
    ensures Split(Join(parts, sep), sep) == parts
    decreases |parts|, |parts[0]|
  {
    var p := parts[0];
    if |parts| == 1 {
      SplitSegment(p, sep);
    } else if |p| == 0 {
      SplitJoin(parts[1..], sep);
      assert Join(parts, sep) == [sep] + Join(parts[1..], sep);
      assert [sep] + Join(parts[1..], sep) == Join(parts, sep);
      assert parts == [""] + parts[1..];
    } else {
      var shorter := [p[1..]] + parts[1..];
      assert forall i :: 0 <= i < |shorter| ==> sep !in shorter[i] by {
        forall i | 0 <= i < |shorter| ensures sep !in shorter[i] {
          if i == 0 {
            assert forall c :: c in p[1..] ==> c in p;
          } else {
            assert shorter[i] == parts[i];
          }
        }
      }
      SplitJoin(shorter, sep);
      var j := Join(parts, sep);
      assert j == p + [sep] + Join(parts[1..], sep);
      assert Join(shorter, sep) == p[1..] + [sep] + Join(parts[1..], sep);
      assert j[0] == p[0] && j[1..] == Join(shorter, sep);
      assert p[0] != sep;
      assert p == [p[0]] + p[1..];
      assert parts == [[p[0]] + shorter[0]] + shorter[1..];
    }
  }

  /** The first part of a split is the text before the first separator, and
      the remaining parts are the split of the text after it. */
  lemma {:induction false} SplitAtFirst(s: string, sep: char)
    ensures Split(s, sep)[0] == s[..IndexOf(s, sep)]
    ensures IndexOf(s, sep) == |s| ==> |Split(s, sep)| == 1
    ensures IndexOf(s, sep) < |s| ==> Split(s, sep)[1..] == Split(s[IndexOf(s, sep) + 1..], sep)
  {
    if |s| > 0 && s[0] != sep {
      SplitAtFirst(s[1..], sep);
      var k := IndexOf(s[1..], sep);
      assert s[..k + 1] == [s[0]] + s[1..][..k];
      assert k < |s| - 1 ==> s[1..][k + 1..] == s[k + 2..];
    }
  }

  /** A separator-free string splits into itself. */
  lemma {:induction false} SplitSegment(p: string, sep: char)
    requires sep !in p
    ensures Split(p, sep) == [p]
  {
    if |p| > 0 {
      assert forall c :: c in p[1..] ==> c in p;
      SplitSegment(p[1..], sep);
      assert p == [p[0]] + p[1..];
    }
  }

  /* ---- integers as text ---- */

  function DigitChar(d: nat): char
    requires d < 10
  {
    ('0' as int + d) as char
  }

  predicate IsDigit(c: char, radix: nat) {
    if radix == 16 then '0' <= c <= '9' || 'a' <= c <= 'f' || 'A' <= c <= 'F'
    else '0' <= c <= '9'
  }

  function DigitValue(c: char): nat {
    if '0' <= c <= '9' then c as int - '0' as int
    else if 'a' <= c <= 'f' then c as int - 'a' as int + 10
    else if 'A' <= c <= 'F' then c as int - 'A' as int + 10
    else 0
  }

  /** The number a string of digits denotes in the given radix. */
  function DigitsValue(ds: string, radix: nat): nat {
    if |ds| == 0 then 0
    else DigitsValue(ds[..|ds| - 1], radix) * radix + DigitValue(ds[|ds| - 1])
  }

  /** The longest prefix of `s` made of digits of the radix. */
  function DigitPrefix(s: string, radix: nat): (ds: string)
    ensures |ds| <= |s| && ds == s[..|ds|]
    ensures forall i :: 0 <= i < |ds| ==> IsDigit(ds[i], radix)
    ensures |ds| < |s| ==> !IsDigit(s[|ds|], radix)
  {
    if |s| > 0 && IsDigit(s[0], radix) then [s[0]] + DigitPrefix(s[1..], radix) else ""
  }

  /** String(n) for a non-negative integer: decimal, no leading zeros. */
  function NatToString(n: nat): (s: string)
    ensures |s| >= 1
    ensures forall i :: 0 <= i < |s| ==> IsDigit(s[i], 10)
  {
    if n < 10 then [DigitChar(n)] else NatToString(n / 10) + [DigitChar(n % 10)]
  }

  /** String(n) for an integer. */
  function IntToString(n: int): string {
    if n < 0 then "-" + NatToString(-n) else NatToString(n)
  }

  /** The unsigned part of parseInt: an optional 0x/0X prefix selecting
      hexadecimal, then the longest run of digits; no digit at all is None. */
  function ParseMagnitude(u: string): (r: Option<nat>)
    ensures r.Some? <==> StartsNumber(u)
  {
    var hex := |u| >= 2 && u[0] == '0' && (u[1] == 'x' || u[1] == 'X');
    var radix := if hex then 16 else 10;
    var ds := DigitPrefix(if hex then u[2..] else u, radix);
    if ds == [] then None else Some(DigitsValue(ds, radix))
  }

  /** What `parseInt` reads a number from once the sign is gone: a decimal
      digit, or "0x" or "0X" followed by a hexadecimal digit. */
  predicate StartsNumber(u: string) {
    if |u| >= 2 && u[0] == '0' && (u[1] == 'x' || u[1] == 'X') then |u| > 2 && IsDigit(u[2], 16)
    else |u| > 0 && IsDigit(u[0], 10)
  }

  /** The text after one leading '-' or '+', if there is one. */
  function Unsigned(t: string): string {
    if |t| > 0 && (t[0] == '-' || t[0] == '+') then t[1..] else t
  }

  /** parseInt after the leading white space: an optional sign, then the
      magnitude. */
  function ParseSigned(t: string): (r: Option<int>)
    ensures r.Some? <==> StartsNumber(Unsigned(t))
    ensures r.Some? && r.value < 0 ==> |t| > 0 && t[0] == '-'
  {
    var negative := |t| > 0 && t[0] == '-';
    var u := Unsigned(t);
    match ParseMagnitude(u)
    case None => None
    case Some(m) => Some(if negative then -(m as int) else m)
  }

  /** parseInt(s) with no radix: leading white space is skipped; no digit at
      all gives NaN, modelled as None. */
  function ParseInt(s: string): (r: Option<int>)
    ensures r.Some? <==> StartsNumber(Unsigned(TrimStart(s)))
    ensures r.Some? && r.value < 0 ==> |TrimStart(s)| > 0 && TrimStart(s)[0] == '-'
  {
    ParseSigned(TrimStart(s))
  }

  lemma {:induction false} NatToStringValue(n: nat)
    ensures DigitsValue(NatToString(n), 10) == n
    decreases n
  {
    var s := NatToString(n);
    if n >= 10 {
      NatToStringValue(n / 10);
      assert s[..|s| - 1] == NatToString(n / 10);
    }
  }

  lemma {:induction false} DigitPrefixOfDigits(s: string, radix: nat)
    requires forall i :: 0 <= i < |s| ==> IsDigit(s[i], radix)
    ensures DigitPrefix(s, radix) == s
  {
    if |s| > 0 {
      DigitPrefixOfDigits(s[1..], radix);
      assert s == [s[0]] + s[1..];
    }
  }

  lemma TrimStartKeeps(s: string)
    requires |s| > 0 && (s[0] == '-' || IsDigit(s[0], 10))
    ensures TrimStart(s) == s
  {
    assert !IsSpace(s[0]);
  }

  /** A run of decimal digits is read as the number it denotes. */
  lemma MagnitudeOfDigits(ds: string)
    requires |ds| >= 1 && forall i :: 0 <= i < |ds| ==> IsDigit(ds[i], 10)
    ensures ParseMagnitude(ds) == Some(DigitsValue(ds, 10))
  {
    assert !(|ds| >= 2 && (ds[1] == 'x' || ds[1] == 'X')) by {
      if |ds| >= 2 { assert IsDigit(ds[1], 10); }
    }
    DigitPrefixOfDigits(ds, 10);
  }

  /** Text that starts with a digit carries no sign: it is read as its magnitude. */
  lemma SignedUnsigned(t: string)
    requires |t| >= 1 && IsDigit(t[0], 10)
    ensures ParseSigned(t) == ParseMagnitude(t)
  {
  }

  /** A leading minus sign negates the magnitude that follows it. */
  lemma SignedNegative(u: string)
    ensures ParseMagnitude(u).Some? ==> ParseSigned("-" + u) == Some(-(ParseMagnitude(u).value as int))
  {
    assert ("-" + u)[1..] == u;
  }

  /** parseInt reads back what String(n) writes: the two are inverse on integers. */
  lemma ParseIntOfIntToString(n: int)
    ensures ParseInt(IntToString(n)) == Some(n)
  {
    var m: nat := if n < 0 then -n else n;
    var ds := NatToString(m);
    TrimStartKeeps(IntToString(n));
    MagnitudeOfDigits(ds);
    NatToStringValue(m);
    if n < 0 {
      SignedNegative(ds);
    } else {
      SignedUnsigned(ds);
    }
  }
}

=== FILE: user_model.dfy ===
/** The User schema of src/models/users.js: field casting and validators, the
    unique email index, the pre-save password hash, login by credentials,
    token issue, `toJSON`, and the pre-remove cascade to the user's tasks.
    Hashing, hash comparison, JWT signing and the email-format check are
    library calls and enter as function parameters. */
module UserModel {
  import opened Wrappers
  import opened Text
  import opened Casting
  import opened TaskModel

  /** A stored user document; `password` holds the bcrypt hash once saved.
      Timestamps are not modelled. */
  datatype User = User(
    name: string,
    email: Option<string>,
    age: int,
    password: string,
    tokens: seq<string>,
    avatar: Option<seq<bv8>>)

  /** A user document about to be saved. When `passwordModified` holds,
      `user.password` is plaintext that the pre-save hook will hash;
      otherwise it is the hash already stored. */
  datatype Draft = Draft(user: User, passwordModified: bool)

  /** Why a save is refused: validation failed on these paths, or the unique
      index on `email` already holds the value (MongoDB error E11000). */
  datatype SaveError = Invalid(paths: set<string>) | DuplicateEmail

  const UserPaths: set<string> := {"name", "age", "email", "password"}
  const MinPasswordLength := 6
  const ForbiddenWord := "password"
  const LoginFailure := "Unable to login"

  /** The password validators on the trimmed value: `minlength: 6`, which
      compares the JavaScript `length` (UTF-16 code units), and the custom
      check `val.toLowerCase().includes('password')`. */
  predicate PasswordAcceptable(p: string) {
    Utf16Length(p) >= MinPasswordLength && !Contains(ToLower(p), ForbiddenWord)
  }

  lemma PasswordRule(p: string)
    ensures PasswordAcceptable(p) <==>
              Utf16Length(p) >= MinPasswordLength && forall i: nat :: !MatchesIgnoringCase(p, ForbiddenWord, i)
  {
    var lower := ToLower(p);
    forall k | 0 <= k < |p| ensures lower[k] == LowerChar(p[k]) {
      ToLowerAt(p, k);
    }
    ContainsIffOccurs(lower, ForbiddenWord);
    forall i: nat ensures OccursAt(lower, ForbiddenWord, i) <==> MatchesIgnoringCase(p, ForbiddenWord, i) {
      if i + |ForbiddenWord| <= |p| {
        if MatchesIgnoringCase(p, ForbiddenWord, i) {
          assert lower[i..i + |ForbiddenWord|] == ForbiddenWord;
        }
        if OccursAt(lower, ForbiddenWord, i) {
          forall j | 0 <= j < |ForbiddenWord| ensures LowerChar(p[i + j]) == ForbiddenWord[j] {
            assert lower[i..i + |ForbiddenWord|][j] == lower[i + j];
          }
        }
      }
    }
  }

  /** Three characters above U+FFFF are six UTF-16 units, which is long
      enough for `minlength: 6`. */
  lemma AstralPasswordAccepted(p: string)
    requires p == "\U{1F600}\U{1F600}\U{1F600}"
    ensures |p| == 3 && PasswordAcceptable(p)
  {
    assert Utf16Length(p[..2]) == 4 by {
      assert p[..2][..1] == p[..1];
    }
    assert p[..|p| - 1] == p[..2];
    PasswordRule(p);
  }

  /** The validators `save` runs. Mongoose validates every path a document
      holds on every save, not only the modified ones: `name` is required
      (non-empty once trimmed), `age` must not be negative, `email` when
      present must satisfy the email predicate, and `password` must be at
      least 6 UTF-16 units long with no "password" in it in any letter case.
      Validation runs before the pre-save hook, so a new password is checked
      as plaintext and a stored one as its hash. The result is every failing
      path. */
  function ValidationErrors(d: Draft, isEmail: string -> bool): (errs: set<string>)
    ensures errs <= UserPaths
    ensures "name" in errs <==> d.user.name == ""
    ensures "age" in errs <==> d.user.age < 0
    ensures "email" in errs <==> d.user.email.Some? && !isEmail(d.user.email.value)
    ensures "password" in errs <==>
              Utf16Length(d.user.password) < MinPasswordLength ||
              exists i: nat :: MatchesIgnoringCase(d.user.password, ForbiddenWord, i)
  {
    PasswordRule(d.user.password);
    (if d.user.name == "" then {"name"} else {})
    + (if d.user.age < 0 then {"age"} else {})
    + (if d.user.email.Some? && !isEmail(d.user.email.value) then {"email"} else {})
    + (if !PasswordAcceptable(d.user.password) then {"password"} else {})
  }

  /** The paths of `doc` whose values the User schema cannot cast. */
  function UserCastErrors(doc: Body): (errs: set<string>)
    ensures errs <= UserPaths
    ensures forall p :: p in errs ==> p in doc
    ensures errs == {} <==>
      && !ReadTrimmed(doc, "name").CastFailed? && !ReadTrimmed(doc, "email").CastFailed?
      && !ReadNumber(doc, "age").CastFailed? && !ReadTrimmed(doc, "password").CastFailed?
  {
    var errs :=
      FailedPath(ReadTrimmed(doc, "name"), "name") + FailedPath(ReadTrimmed(doc, "email"), "email")
      + FailedPath(ReadNumber(doc, "age"), "age") + FailedPath(ReadTrimmed(doc, "password"), "password");
    assert errs <= UserPaths;
    errs
  }

  /** `new User(doc)`: the String and Number casts with `trim` applied, `age`
      defaulting to 0, no tokens and no avatar. Every path of a new document
      counts as modified, so its password will be validated and hashed. A
      value that cannot be cast fails with its path. */
  function BuildUser(doc: Body): (r: Result<Draft, set<string>>)
    ensures r.Success? ==> r.value.passwordModified && r.value.user.tokens == [] && r.value.user.avatar.None?
    ensures r.Success? && "age" !in doc ==> r.value.user.age == 0
    ensures r.Success? && "age" in doc ==> CastNumber(doc["age"]) == Some(r.value.user.age)
    ensures r.Success? && "email" !in doc ==> r.value.user.email.None?
    ensures r.Success? && "email" in doc ==> r.value.user.email.Some? && ReadTrimmed(doc, "email") == Cast(r.value.user.email.value)
    ensures r.Success? && "password" in doc ==> ReadTrimmed(doc, "password") == Cast(r.value.user.password)
    ensures r.Success? && "name" in doc ==> ReadTrimmed(doc, "name") == Cast(r.value.user.name)
    ensures r.Success? && "name" !in doc ==> r.value.user.name == ""
    ensures r.Success? && "password" !in doc ==> r.value.user.password == ""
    ensures r.Success? ==> Trimmed(r.value.user.name) && Trimmed(r.value.user.password)
    ensures r.Failure? ==> r.error != {} && r.error <= UserPaths && forall p :: p in r.error ==> p in doc
    ensures r.Success? <==> UserCastErrors(doc) == {}
  {
    var errs := UserCastErrors(doc);
    if errs != {} then Failure(errs)
    else
      var name := ReadTrimmed(doc, "name");
      var email := ReadTrimmed(doc, "email");
      var age := ReadNumber(doc, "age");
      var password := ReadTrimmed(doc, "password");
      Success(Draft(
        User(
          if name.Cast? then name.value else "",
          if email.Cast? then Some(email.value) else None,
          if age.Cast? then age.value else 0,
          if password.Cast? then password.value else "",
          [],
          None),
        true))
  }

  /** The unique index on `email`: no two users hold the same value. A missing
      email counts as a value (null) of its own, as in a non-sparse index. */
  predicate EmailsUnique(users: map<UserId, User>) {
    forall a, b :: a in users && b in users && users[a].email == users[b].email ==> a == b
  }

  /** Some other user already holds this email value. */
  predicate EmailTaken(users: map<UserId, User>, id: UserId, email: Option<string>) {
    exists other :: other in users && other != id && users[other].email == email
  }

  /** The pre-save hook: the password is hashed only when it was modified. */
  function HashIfModified(d: Draft, hash: string -> string): User {
    if d.passwordModified then d.user.(password := hash(d.user.password)) else d.user
  }

  /** `user.save()` for the document with id `id`: validation, then the
      pre-save hook, then the write, which the unique index may refuse. */
  function Save(users: map<UserId, User>, id: UserId, d: Draft,
                hash: string -> string, isEmail: string -> bool): (r: Result<map<UserId, User>, SaveError>)
    ensures r.Success? <==> ValidationErrors(d, isEmail) == {} && !EmailTaken(users, id, d.user.email)
    ensures ValidationErrors(d, isEmail) != {} ==> r == Failure(Invalid(ValidationErrors(d, isEmail)))
    ensures r.Success? ==> r.value.Keys == users.Keys + {id}
    ensures r.Success? ==> forall other :: other in users && other != id ==> r.value[other] == users[other]
    ensures r.Success? && d.passwordModified ==> r.value[id].password == hash(d.user.password)
    ensures r.Success? && !d.passwordModified ==> r.value[id].password == d.user.password
    ensures r.Success? ==> r.value[id].(password := d.user.password) == d.user
    ensures r.Success? && EmailsUnique(users) ==> EmailsUnique(r.value)
  {
    var errs := ValidationErrors(d, isEmail);
    if errs != {} then Failure(Invalid(errs))
    else if EmailTaken(users, id, d.user.email) then Failure(DuplicateEmail)
    else Success(users[id := HashIfModified(d, hash)])
  }

  /** `User.findByCredentials`: the user whose email is the given one (the
      query runs the `trim` setter) and whose hash `verify` accepts the
      password. Both failures, unknown email and wrong password, give the
      same "Unable to login" error. */
  function FindByCredentials(users: map<UserId, User>, email: string, password: string,
                             verify: (string, string) -> bool): (r: Result<UserId, string>)
    requires EmailsUnique(users)
    ensures r.Failure? ==> r.error == LoginFailure
    ensures r.Success? ==> r.value in users && users[r.value].email == Some(Trim(email))
                           && verify(password, users[r.value].password)
    ensures r.Failure? <==>
              forall id :: id in users && users[id].email == Some(Trim(email)) ==> !verify(password, users[id].password)
  {
    var key := Some(Trim(email));
    if exists id :: id in users && users[id].email == key then
      var id :| id in users && users[id].email == key;
      if verify(password, users[id].password) then Success(id) else Failure(LoginFailure)
    else
      Failure(LoginFailure)
  }

  /** An unknown email and a wrong password are indistinguishable to the caller. */
  lemma LoginFailureIndistinguishable(users: map<UserId, User>, unknown: string, email: string, known: UserId,
                                      password: string, verify: (string, string) -> bool)
    requires EmailsUnique(users)
    requires forall id :: id in users ==> users[id].email != Some(Trim(unknown))
    requires known in users && users[known].email == Some(Trim(email))
    requires !verify(password, users[known].password)
    ensures FindByCredentials(users, unknown, password, verify) == Failure(LoginFailure)
    ensures FindByCredentials(users, email, password, verify) == Failure(LoginFailure)
  {
    forall id | id in users && users[id].email == Some(Trim(email))
      ensures !verify(password, users[id].password)
    {
      assert id == known;
    }
  }

  /** Sign-up then login: a user built from a body and saved can log in with
      the same email text and the trimmed password, whenever `verify` accepts
      a password against its own hash. The login password is not trimmed by
      the source, so it is the trimmed one that matches. */
  lemma SignupThenLogin(users: map<UserId, User>, id: UserId, doc: Body, email: string, password: string,
                        hash: string -> string, verify: (string, string) -> bool, isEmail: string -> bool)
    requires EmailsUnique(users)
    requires "email" in doc && doc["email"] == Str(email)
    requires "password" in doc && doc["password"] == Str(password)
    requires BuildUser(doc).Success?
    requires Save(users, id, BuildUser(doc).value, hash, isEmail).Success?
    requires verify(Trim(password), hash(Trim(password)))
    ensures EmailsUnique(Save(users, id, BuildUser(doc).value, hash, isEmail).value)
    ensures FindByCredentials(Save(users, id, BuildUser(doc).value, hash, isEmail).value, email, Trim(password), verify)
              == Success(id)
  {
    var saved := Save(users, id, BuildUser(doc).value, hash, isEmail).value;
    assert saved[id].email == Some(Trim(email));
    assert saved[id].password == hash(Trim(password));
    var r := FindByCredentials(saved, email, Trim(password), verify);
    assert r.Success?;
  }

  /** `generateAuthToken`: signs a token for the user, appends it to the end of
      `tokens` and saves. `jwt.sign` puts the issue time `iat`, in seconds,
      into the payload next to the id, so `sign` takes both. The password is
      not modified, so the stored hash is kept as it is and never hashed
      again. */
  function GenerateAuthToken(users: map<UserId, User>, id: UserId, u: User, sign: (UserId, int) -> string,
                             issuedAt: int, hash: string -> string, isEmail: string -> bool)
    : (r: Result<(string, map<UserId, User>), SaveError>)
    ensures r.Success? ==> r.value.0 == sign(id, issuedAt) && r.value.1.Keys == users.Keys + {id}
    ensures r.Success? ==> r.value.1[id].tokens == u.tokens + [r.value.0]
    ensures r.Success? ==> r.value.1[id].password == u.password
    ensures r.Success? ==> r.value.1[id] == u.(tokens := u.tokens + [r.value.0])
    ensures r.Success? ==> forall other :: other in users && other != id ==> r.value.1[other] == users[other]
  {
    var token := sign(id, issuedAt);
    match Save(users, id, Draft(u.(tokens := u.tokens + [token]), false), hash, isEmail)
    case Success(saved) => Success((token, saved))
    case Failure(e) => Failure(e)
  }

  /** What a stored user must satisfy for a later save to pass validation:
      every validator holds, the password one on the stored hash. */
  predicate StoredValid(u: User, isEmail: string -> bool) {
    u.name != "" && u.age >= 0 && (u.email.Some? ==> isEmail(u.email.value)) && PasswordAcceptable(u.password)
  }

  /** Issuing a token for a stored user that passes validation always
      succeeds: the save it triggers refuses nothing and collides with no
      email. */
  lemma GenerateAuthTokenSucceeds(users: map<UserId, User>, id: UserId, sign: (UserId, int) -> string,
                                  issuedAt: int, hash: string -> string, isEmail: string -> bool)
    requires id in users && StoredValid(users[id], isEmail) && EmailsUnique(users)
    ensures GenerateAuthToken(users, id, users[id], sign, issuedAt, hash, isEmail).Success?
  {
    var u := users[id];
    var d := Draft(u.(tokens := u.tokens + [sign(id, issuedAt)]), false);
    assert ValidationErrors(d, isEmail) == {};
    assert !EmailTaken(users, id, d.user.email);
  }

  /** The user as sent in a response. */
  datatype UserView = UserView(id: UserId, name: string, email: Option<string>, age: int)

  /** `toJSON`: the document without `password`, `tokens` and `avatar`. */
  function ToJson(id: UserId, u: User): (v: UserView)
    ensures v.id == id && v.name == u.name && v.email == u.email && v.age == u.age
  {
    UserView(id, u.name, u.email, u.age)
  }

  /** The JSON form does not depend on the secrets: users that differ only in
      password hash, tokens or avatar serialize identically. */
  lemma ToJsonHidesSecrets(id: UserId, u: User, password: string, tokens: seq<string>, avatar: Option<seq<bv8>>)
    ensures ToJson(id, u) == ToJson(id, u.(password := password, tokens := tokens, avatar := avatar))
  {
  }

  /** `user.remove()` with its pre-remove hook `Task.deleteMany({owner})`:
      the user is gone, and so is every task it owned and no other task. */
  function Remove(users: map<UserId, User>, tasks: map<TaskId, Task>, id: UserId)
    : (r: (map<UserId, User>, map<TaskId, Task>))
    ensures r.0.Keys == users.Keys - {id}
    ensures forall other :: other in r.0 ==> r.0[other] == users[other]
    ensures OwnedBy(r.1, id) == map[]
    ensures forall u :: u != id ==> OwnedBy(r.1, u) == OwnedBy(tasks, u)
    ensures r.1.Keys + OwnedBy(tasks, id).Keys == tasks.Keys
  {
    var kept := NotOwnedBy(tasks, id);
    assert forall u :: u != id ==> OwnedBy(kept, u) == OwnedBy(tasks, u);
    (users - {id}, kept)
  }
}

=== FILE: wrappers.dfy ===
/** The optional-value and success-or-error types shared by every module of the model. */
module Wrappers {

  /** A value that may be missing (an absent body key, a NaN from parseInt, ...). */
  datatype Option<+T> = None | Some(value: T)

  /** The outcome of an operation that can fail with an error value. */
  datatype Result<+R, +E> = Success(value: R) | Failure(error: E)
}
